=== FILE: README.md ===
# High-school activities client: a verified model

This project models the browser client of the Mergington High School
activities app (`src/static/app.js`). The client fetches the roster of
extracurricular activities and renders one card per activity. Each card
lists its participants with an initials badge and a delete icon. The client
also fills the activity `<select>`, signs students up through a form, and
unregisters them when the icon is clicked. The model is pure: each step of
the page is a function from the old state and the I/O outcome to the new
state.

Modules, one file each:

- `Wrappers` (`wrappers.dfy`): `Option`, `Result` and the thrown error
  kinds. `OrElse` models the `v || "fallback"` idiom.
- `Text` (`text.dfy`): the character classes and string operations the
  client uses. These are ECMAScript `\s`, ASCII `toUpperCase`,
  `s[0] || ""` and a global single-character `replace`. `Flatten`
  concatenates a sequence of strings; it serves only to characterise the
  tokens of `getInitials`, not the markup join of the rows.
- `Escape` (`escape.dfy`): `escapeHtml` as written, with five replaces in
  source order. It also holds a per-character reference escaper and a
  decoder of the five entities `escapeHtml` produces, which stands for
  reading an attribute value back.
- `Initials` (`initials.dfy`): `getInitials`. This covers the tokeniser
  (separators, the whitespace split and the empty-piece filter), the
  one-token `@` rule, the two-token rule, and the throw on input that has
  no token.
- `Render` (`render.dfy`): the render step of `fetchActivities`. It maps
  the UI state (card area and select options) and the fetch outcome to the
  new UI state.
- `Mutation` (`mutation.dfy`): how the submit and click handlers interpret
  an outcome (ok, not ok, exception), and the request URL they build.
  `ParseRequestUrl`, `ParseAction` and `SlashIndex` are not client code.
  They are an assumed reader of the URL, standing for the server's router,
  so that the URL's shape can be stated as a round trip.
- `Notifier` (`notifier.dfy`): the message element and its hide timers,
  kept as a count of pending timers.
- `Client` (`client.dfy`): the page as a whole. It covers start-up, a
  handler's response followed by the refresh, the click target read back
  from a rendered row, and a few concrete scenarios.

Behaviour of the code that a reader may not expect:

- `getInitials("alice@example.com")` is `"AC"`, not `"A"`. `.` is one of
  the separators, so the address gives two tokens, `alice@example` and
  `com`, and the one-token `@` rule never applies.
- The select's options are appended on every render and never cleared. A
  refresh therefore adds a second copy of every name, and a failed parse
  keeps the options from the page's markup and from earlier renders.
- A new message does not restart the hide timer. Earlier timers stay
  pending and hide whatever message is showing when they fire.
- The exception branch of both handlers shows its message without
  scheduling a hide.
- The initials badge is written into the markup without `escapeHtml`. A
  participant `"<b c"` gets the badge `"<C"`, which opens a tag.

## Model

| member | source | states |
|---|---|---|
| Wrappers.OrElse | src/static/app.js:107 | the falsy-value fallback on an optional string: a non-empty value is kept, and an absent or empty value gives the fallback |
| Text.ReplaceAll | src/static/app.js:23-27 | a global `replace` of one character: the result holds only the replacement's characters and the input's other characters, and keeps every character of the input other than the replaced one |
| Text.UpperChar | src/static/app.js:14 | `toUpperCase` of one character: `a`–`z` map to `A`–`Z`, the result is never a lower-case letter, and every other character is kept |
| Text.Upper | src/static/app.js:14-16 | `toUpperCase` of a string: same length, each character upper-cased in place |
| Text.FirstChar | src/static/app.js:14-16 | `s[0]` falling back to `""`: the first character of a non-empty string, or `""` |
| Escape.ReplaceSteps | src/static/app.js:22-27 | after the five replaces in source order, none of `<`, `>`, `"` and `'` is left |
| Escape.EscapeHtml | src/static/app.js:20-28 | empty input gives `""`. The output has no `<`, `>`, `"` or `'`, and every `&` in it opens one of the five entities. Decoding the five entities gives back the input |
| Escape.EscapeField | src/static/app.js:59-60 | an absent `description` or `schedule` renders as `""`. A present one renders well escaped and decodes back to itself |
| Escape.ReplaceStepsPerChar | src/static/app.js:22-27 | the five chained global replaces, `&` first, equal escaping each character on its own, so no entity is escaped twice |
| Escape.EscapeEachWellEscaped | src/static/app.js:23-27 | per-character escaping leaves no `<`, `>`, `"` or `'`, and every `&` it leaves opens an entity |
| Escape.UnescapeEscapeEach | src/static/app.js:23-27 | decoding undoes per-character escaping |
| Escape.EscapeEachUnescape | src/static/app.js:23-27 | on a well-escaped string, escaping the decoded text gives the string back |
| Escape.EscapeHtmlImage | src/static/app.js:20-28 | a string is an output of `escapeHtml` exactly when it is well escaped |
| Escape.EscapeHtmlInjective | src/static/app.js:20-28 | two strings escape to the same text exactly when they are equal, so attribute values identify participants |
| Escape.EscapeHtmlPlain | src/static/app.js:20-28 | a string with none of the five special characters is returned unchanged |
| Escape.EscapeHtmlPerChar | src/static/app.js:20-28 | `escapeHtml` equals escaping each character on its own |
| Escape.EscapeHtmlTag | src/static/app.js:24-25 | a tag `<name>` renders as the literal text `&lt;name&gt;` when the name has no special character |
| Escape.EscapeHtmlEntityText | src/static/app.js:23 | text that already reads as an entity, such as `&lt;`, is escaped once more: its `&` becomes `&amp;` and the rest is kept |
| Initials.NormalizeSeparators | src/static/app.js:10 | each of `_`, `.` and `-` becomes a space, and every other character is kept in place |
| Initials.SplitWhitespace | src/static/app.js:10 | `split(/\s+/)` always returns at least one piece, even for the empty string; the Split lemmas below state what the pieces are |
| Initials.SplitPiecesNoSpace | src/static/app.js:10 | no piece of `split(/\s+/)` contains whitespace |
| Initials.SplitFirstPiece | src/static/app.js:10 | the first piece of `split(/\s+/)` is empty exactly when the string is empty or starts with whitespace, and the empty string gives exactly one empty piece |
| Initials.SplitLastPiece | src/static/app.js:10 | the last piece of `split(/\s+/)` is empty exactly when the string is empty or ends with whitespace |
| Initials.SplitKeepsNonSpace | src/static/app.js:10 | the pieces of `split(/\s+/)`, read in order, are exactly the input's non-whitespace characters |
| Initials.DropEmpty | src/static/app.js:10 | every string `filter(Boolean)` keeps is non-empty and comes from the input |
| Initials.DropEmptyKeeps | src/static/app.js:10 | every non-empty input string is kept by `filter(Boolean)` |
| Initials.DropEmptyAppend | src/static/app.js:10 | `filter(Boolean)` of a concatenation is the concatenation of the filtered parts, so the kept strings stay in input order and keep their multiplicity |
| Initials.DropEmptySingle | src/static/app.js:10 | a one-element array keeps its element exactly when it is not the empty string |
| Initials.Tokens | src/static/app.js:10 | the `parts` array has no empty token |
| Initials.BeforeAt | src/static/app.js:13 | the result is the prefix of the token before its first `@`, or the whole token when it has no `@` |
| Initials.TokensCharacterised | src/static/app.js:10 | the tokens are non-empty and consist of word characters only. Read in order, they are exactly the input's characters that are neither separators nor whitespace |
| Initials.TokensEmpty | src/static/app.js:10 | there are no tokens exactly when the input has no word character |
| Initials.GetInitials | src/static/app.js:8-17 | empty input gives `""`. The call throws exactly when non-empty input has no word character. Otherwise the badge has at most two characters and no lower-case letter |
| Initials.GetInitialsOneToken | src/static/app.js:11-14 | with exactly one token, the badge is the upper-cased first character of the token, or `""` when the token starts with `@` |
| Initials.GetInitialsTwoTokens | src/static/app.js:16 | with two or more tokens, the badge is the upper-cased first characters of the first two, whatever follows |
| Initials.GetInitialsFullName | src/static/app.js:16 | `"Alice Smith"` gives `"AS"` |
| Initials.GetInitialsEmail | src/static/app.js:10-16 | `"alice@example.com"` gives `"AC"`, because the `.` splits it into two tokens |
| Initials.GetInitialsSingleWord | src/static/app.js:11-14 | `"bob"` gives `"B"` |
| Initials.GetInitialsLeadingAt | src/static/app.js:13-14 | `"@bob"` gives `""` |
| Render.Names | src/static/app.js:72-75 | one option value per entry: the entry's name, in entry order |
| Render.RenderRow | src/static/app.js:49-53 | the row exists exactly when the badge does not throw. The badge is `getInitials` of the participant. The text and `data-email` decode to the participant, and `data-activity` decodes to the activity name; the text and `data-activity` are well escaped |
| Render.RenderRowEscaped | src/static/app.js:49-53 | a rendered row's text and `data-email` are `escapeHtml` of the participant and its `data-activity` is `escapeHtml` of the activity; all three are well escaped, so no attribute value can be closed early |
| Render.BadgeCanOpenTag | src/static/app.js:50 | the badge is written unescaped: a participant whose first token starts with `<` and who has a second token gets a badge that starts with a raw `<` and is not well escaped |
| Render.BadgeOfAngleName | src/static/app.js:50 | the participant `"<b c"` gets the badge `"<C"` |
| Render.RenderRows | src/static/app.js:47-54 | the rows exist exactly when no participant's badge throws. In that case there is one row per participant, in order |
| Render.RenderCard | src/static/app.js:41-67 | a card is built exactly when `participants` is present and no badge throws |
| Render.RenderCardContents | src/static/app.js:44-67 | the title is well escaped and decodes to the name, and the description and schedule are escaped. `spotsLeft` is capacity minus enrolment, unclamped. The placeholder appears exactly for an empty list; otherwise each participant gets a row, in order, whose text is `escapeHtml` of the participant, whose `data-email` and `data-activity` are well escaped and decode to the participant and the activity, and whose badge is `getInitials` of the participant |
| Render.FirstFailure | src/static/app.js:40-44 | the first entry whose card throws: every earlier card is built and this one throws |
| Render.RenderEntries | src/static/app.js:40-76 | the loop appends one card and one option per entry it finishes, the options being the entries' names in order and the cards those entries' cards. A loop that does not stop finishes every entry |
| Render.RenderEntriesStops | src/static/app.js:40-76 | the loop stops exactly when some card throws, and it has appended the names of exactly the entries before that card |
| Render.RenderEntriesCards | src/static/app.js:40-69 | a loop that does not stop appends one card per entry, in order |
| Render.ApplyFetch | src/static/app.js:31-81 | the card area is never left loading, and options are only appended. A failed fetch shows the failure paragraph and keeps the options. A roster with no throwing card shows one card per entry, in order, and appends every name. Otherwise the failure paragraph shows, and only the names before the first throwing card were appended |
| Render.RenderedRowsRecoverIdentifiers | src/static/app.js:49-52 | every rendered row's attributes decode to the participant and the activity it was rendered for |
| Render.OptionsAccumulate | src/static/app.js:71-75 | rendering the same roster twice gives the same cards but lists every name twice |
| Render.AreaIgnoresPreviousState | src/static/app.js:37-78 | the new card area depends on the fetch outcome alone |
| Render.SpotsLeftUnclamped | src/static/app.js:44 | an activity over capacity shows a negative number of spots left |
| Mutation.Interpret | src/static/app.js:100-161 | only an ok response refreshes and shows the success kind, and only the signup handler resets its form. Only the exception branch schedules no hide. The signup ok text is `message` with no fallback; every other server text falls back to the handler's fixed text; an exception shows the fixed retry text |
| Mutation.InterpretTextEmpty | src/static/app.js:100-101 | the message text is empty exactly after a successful signup whose body has no, or an empty, `message` |
| Mutation.InterpretShowsServerText | src/static/app.js:141-147 | a non-empty server `message` or `detail` is shown verbatim |
| Mutation.RequestUrl | src/static/app.js:92 | the URL starts with `/activities/`, the encoded activity and the handler's action, and ends with `?email=` and the encoded e-mail |
| Mutation.RequestUrlParses | src/static/app.js:92 | the request URL names the handler's action, and the encoded activity and e-mail read back from its path segment and `email` query when the encoder leaves no `/` in the name |
| Mutation.ParseRequestUrlOf | src/static/app.js:133 | a URL of the shape the click handler builds, `/activities/<segment>/<action>?email=<value>`, reads back to that segment, action and value through the assumed reader |
| Notifier.Show | src/static/app.js:111-116 | a shown message replaces the text and class and makes the element visible. The pending timers grow by exactly one when the branch schedules a hide and stay the same otherwise, so none is cancelled |
| Notifier.HideFires | src/static/app.js:114-116 | a firing timer hides the element and leaves its text and class, and exactly one pending timer is used up |
| Notifier.StaleTimerHidesNewerMessage | src/static/app.js:151-156 | the timer of an earlier message hides a later one |
| Notifier.ThrewMessageStays | src/static/app.js:157-161 | with no timer pending, the exception message stays visible |
| Notifier.TimersAccumulate | src/static/app.js:111-116 | after a run of messages, the pending timers are the earlier ones plus one per branch that scheduled a hide |
| Client.Start | src/static/app.js:166-167 | start-up renders the fetched roster after the markup's options: a failed fetch shows the failure paragraph with the markup's options only; the cards appear exactly when the fetch succeeded and no card throws, one per entry in order, with one option per entry appended; a throwing card leaves the options of the entries before it. No message is shown and the form is untouched |
| Client.HandleResponse | src/static/app.js:98-161 | the element shows the interpreted text with the success class exactly on an ok response, and one hide timer is added unless the request threw. A response that is not ok leaves cards and options exactly as they were. An ok response re-renders the card area from the refreshed roster alone and appends the refreshed names (all of them, none after a failed fetch, or those before the throwing card). The form is reset exactly after a successful signup |
| Client.ClickTarget | src/static/app.js:128-129 | the activity and e-mail read off a delete icon are, for a well-escaped attribute, the strings that `escapeHtml` renders to that attribute |
| Client.ClickUnregistersRenderedParticipant | src/static/app.js:128-133 | a click on a rendered delete icon requests the unregister of exactly that participant from exactly that activity |
| Client.ChessClubCard | src/static/app.js:44-55 | Chess Club with capacity 10 renders with `10 - n` spots left and one row per participant |
| Client.ChessClubBefore | src/static/app.js:44-61 | two participants in Chess Club show 8 spots left |
| Client.ChessClubAfterUnregister | src/static/app.js:141-145 | after a successful unregister and its refresh, Chess Club shows one participant and 9 spots left |
| Client.BrokenEntryKeepsEarlierOptions | src/static/app.js:40-78 | an entry without `participants` after a good one shows the failure paragraph, and keeps the good entry's option |

## Left out

- DOM plumbing is not modelled. This covers `getElementById`, `createElement`, `classList`, `closest`, event delegation and the template's literal whitespace. A card is an abstract `Card`/`Row` value.
- `fetch`, `response.json()` and the network are not modelled. They become the `FetchResult` and `Response` inputs. The backend that answers them is not part of this model.
- Time is not modelled. Nothing covers the 5-second delay, the order in which overlapping requests complete, or a refresh that arrives after another handler ran. A handler's refresh is applied as soon as its response is handled.
- `encodeURIComponent` is an uninterpreted parameter `enc`. Only the URL's shape, and reading it back, are stated.
- `Object.entries` key order is not modelled. The entries arrive as a given sequence.
- `console.error` is a logging side effect and is left out.
- A `participants` value that is present but not an array (a number, `true`, an object) is not modelled. The code reads its `.length` as `undefined` without throwing, shows `NaN` spots left and the "No participants yet" placeholder; the model has only an array or `None`.
- Non-string values reaching `escapeHtml` or `getInitials` are not modelled. These are numbers, arrays, and `String()` of objects. A non-numeric `max_participants`, with its `NaN`, is left out too.
- Non-ASCII text is out of scope: UTF-16 code units, and `toUpperCase` outside `a`–`z`. `Text.UpperChar` upper-cases ASCII letters only.
- A FastAPI validation error whose `detail` is an array is not modelled. `detail` is an optional string.
- `signupForm.reset()` is modelled as a count of resets. The field values it restores are not modelled.
- Client.ClickUnregistersRenderedParticipant: the HTML parser's newline normalisation (CR and CRLF become LF) and its replacement of NUL by U+FFFD are not modelled. An identifier holding `\r` or `\0` would read back changed, and the unregister would name a different participant.
- Render.RenderedRowsRecoverIdentifiers: the same parser rewrites are not modelled; the decoding covers the five entities only.
- Client.ClickTarget: reads attributes back through the five-entity decoding only, for the same reason.
- Mutation.RequestUrlParses: this does not state that `encodeURIComponent` is decoded back by the server. It states only that the encoded values can be read back from the URL.

=== FILE: client.dfy ===
/** The page-level behaviour of the client (src/static/app.js): a handler's
    response updates the message element and, on an ok response, resets the
    form (signup only) and re-renders from a refreshed fetch. The local roster
    is never patched; the only way the cards change is a full render.

    The refresh is started without being awaited; its result is taken as a
    parameter and applied as if it arrived before anything else happened.
 */
module Client {
  import opened Wrappers
  import opened Escape
  import opened Render
  import opened Mutation
  import opened Notifier

  /** The state the handlers change: the rendered roster and select, the
      message element, and how many times the signup form was reset. */
  datatype Page = Page(ui: UiState, message: Message, formResets: nat)

  /** The page after `fetchActivities()` runs once at start-up, with the
      select holding the options written in the page's markup. */
  function Start(markupOptions: seq<string>, res: FetchResult): (p: Page)
    ensures p.ui.area != Loading
    ensures markupOptions <= p.ui.options
    ensures p.message == Initial && p.formResets == 0
    ensures res.FetchFailed? ==> p.ui == UiState(LoadFailed, markupOptions)
    ensures p.ui.area.Cards? <==>
      res.Fetched? && forall i :: 0 <= i < |res.entries| ==> RenderCard(res.entries[i]).Ok?
    ensures p.ui.area.Cards? ==>
      && |p.ui.area.cards| == |res.entries|
      && (forall i :: 0 <= i < |res.entries| ==> RenderCard(res.entries[i]) == Ok(p.ui.area.cards[i]))
      && p.ui.options == markupOptions + Names(res.entries)
    ensures res.Fetched? && p.ui.area == LoadFailed ==>
      p.ui.options == markupOptions + Names(res.entries[..FirstFailure(res.entries)])
  {
    Page(ApplyFetch(UiState(Loading, markupOptions), res), Initial, 0)
  }

  /** A submit or click handler after its response: the feedback is shown;
      an ok response resets the signup form and re-renders from
      `refreshed`; any other outcome leaves the roster exactly as it was,
      since the client never updates it optimistically. */
  function HandleResponse(p: Page, h: Handler, resp: Response, refreshed: FetchResult): (p': Page)
    ensures p'.message.text == Interpret(h, resp).text && !p'.message.hidden
    ensures !resp.Accepted? ==> p'.ui == p.ui
    ensures resp.Accepted? ==> p'.ui.area == ApplyFetch(UiState(Loading, []), refreshed).area
    ensures p.ui.options <= p'.ui.options
    ensures p'.formResets == p.formResets + 1 <==> h == SignUp && resp.Accepted?
    ensures p'.formResets == p.formResets || p'.formResets == p.formResets + 1
    ensures p'.message.kind == Some(if resp.Accepted? then Success else Error)
    ensures p'.message.pendingHides == p.message.pendingHides + (if resp.Threw? then 0 else 1)
    ensures resp.Accepted? && p'.ui.area.Cards? ==>
      p'.ui.options == p.ui.options + Names(refreshed.entries)
    ensures resp.Accepted? && refreshed.FetchFailed? ==> p'.ui.options == p.ui.options
    ensures resp.Accepted? && refreshed.Fetched? && p'.ui.area == LoadFailed ==>
      p'.ui.options == p.ui.options + Names(refreshed.entries[..FirstFailure(refreshed.entries)])
  {
    var fb := Interpret(h, resp);
    var ui := if fb.refreshes then ApplyFetch(p.ui, refreshed) else p.ui;
    AreaIgnoresPreviousState(p.ui, UiState(Loading, []), refreshed);
    Page(ui, Show(p.message, fb), p.formResets + (if fb.resetsForm then 1 else 0))
  }

  /** What the click handler reads off a delete icon: `dataset.activity`
      of the enclosing item and `dataset.email` of the icon, with the five
      entities `escapeHtml` produces decoded. Each identifier read back from
      a well-escaped attribute is the one string that renders to it. */
  function ClickTarget(row: Row): (t: (string, string))
    ensures WellEscaped(row.dataActivity) ==> EscapeHtml(t.0) == row.dataActivity
    ensures WellEscaped(row.dataEmail) ==> EscapeHtml(t.1) == row.dataEmail
  {
    EscapeHtmlImage(row.dataActivity);
    EscapeHtmlImage(row.dataEmail);
    (Unescape(row.dataActivity), Unescape(row.dataEmail))
  }

  /** A click on the delete icon of participant `j` of card `i` unregisters
      exactly that participant from exactly that activity: the identifiers
      survive the trip through the escaped attributes, so the request URL
      is the one built from the server's own strings. */
  lemma ClickUnregistersRenderedParticipant(st: UiState, entries: seq<Entry>, i: nat, j: nat, enc: string -> string)
    requires ApplyFetch(st, Fetched(entries)).area.Cards?
    requires i < |entries|
    requires ApplyFetch(st, Fetched(entries)).area.cards[i].participants.Rows?
    requires j < |ApplyFetch(st, Fetched(entries)).area.cards[i].participants.rows|
    ensures entries[i].details.participants.Some? && j < |entries[i].details.participants.value|
    ensures var row := ApplyFetch(st, Fetched(entries)).area.cards[i].participants.rows[j];
      var target := ClickTarget(row);
      && target == (entries[i].name, entries[i].details.participants.value[j])
      && RequestUrl(Unregister, target.0, target.1, enc)
         == RequestUrl(Unregister, entries[i].name, entries[i].details.participants.value[j], enc)
  {
    RenderedRowsRecoverIdentifiers(st, entries, i, j);
  }

  // ---------------------------------------------------------------------
  // Scenarios

  /** The Chess Club entry: capacity 10, with whatever description and
      schedule the server sends. */
  function ChessClub(about: Option<string>, schedule: Option<string>, participants: seq<string>): Entry {
    Entry("Chess Club", Details(about, schedule, 10, Some(participants)))
  }

  /** The Chess Club card for a list of participants whose badges do not
      throw: 10 minus the enrolment spots left, and one row per
      participant. */
  lemma ChessClubCard(about: Option<string>, schedule: Option<string>, ps: seq<string>)
    requires ps != []
    requires forall k :: 0 <= k < |ps| ==> ps[k] != [] && Initials.IsWordChar(ps[k][0])
    ensures RenderCard(ChessClub(about, schedule, ps)).Ok?
    ensures RenderCard(ChessClub(about, schedule, ps)).value.spotsLeft == 10 - |ps|
    ensures RenderCard(ChessClub(about, schedule, ps)).value.participants.Rows?
    ensures |RenderCard(ChessClub(about, schedule, ps)).value.participants.rows| == |ps|
  {
    assert forall k :: 0 <= k < |ps| ==> Initials.GetInitials(ps[k]).Ok?;
    RenderCardContents(ChessClub(about, schedule, ps));
  }

  /** Chess Club with capacity 10 and two participants shows 8 spots
      left. */
  lemma ChessClubBefore(about: Option<string>, schedule: Option<string>, a: string, b: string)
    requires a != [] && Initials.IsWordChar(a[0])
    requires b != [] && Initials.IsWordChar(b[0])
    ensures var p := Start([], Fetched([ChessClub(about, schedule, [a, b])]));
      && p.ui.area.Cards? && |p.ui.area.cards| == 1
      && p.ui.area.cards[0].spotsLeft == 8
  {
    ChessClubCard(about, schedule, [a, b]);
    var p := Start([], Fetched([ChessClub(about, schedule, [a, b])]));
    assert p.ui.area.Cards? && p.ui.area.cards == [RenderCard(ChessClub(about, schedule, [a, b])).value];
  }

  /** After a successful unregister of one of the two and the refresh it
      triggers, Chess Club shows one participant and 9 spots left. */
  lemma ChessClubAfterUnregister(about: Option<string>, schedule: Option<string>, p: Page, b: string, message: Option<string>)
    requires b != [] && Initials.IsWordChar(b[0])
    ensures var p' := HandleResponse(p, Unregister, Accepted(message), Fetched([ChessClub(about, schedule, [b])]));
      && p'.ui.area.Cards? && |p'.ui.area.cards| == 1
      && p'.ui.area.cards[0].spotsLeft == 9
      && p'.ui.area.cards[0].participants.Rows?
      && |p'.ui.area.cards[0].participants.rows| == 1
  {
    var e1 := ChessClub(about, schedule, [b]);
    ChessClubCard(about, schedule, [b]);
    var refreshedUi := ApplyFetch(UiState(Loading, []), Fetched([e1]));
    assert refreshedUi.area.Cards? && refreshedUi.area.cards == [RenderCard(e1).value];
  }

  /** An entry whose `participants` is missing or `null` stops the render: the card
      area shows the failure paragraph, and the option of the entry before
      it, already appended, stays. */
  lemma BrokenEntryKeepsEarlierOptions(good: Entry, bad: Entry, st: UiState)
    requires RenderCard(good).Ok?
    requires bad.details.participants == None
    ensures ApplyFetch(st, Fetched([good, bad])) == UiState(LoadFailed, st.options + [good.name])
  {
    assert FirstFailure([good, bad]) == 1 by {
      assert [good, bad][1..] == [bad];
    }
    assert [good, bad][..1] == [good];
  }
}

=== FILE: escape.dfy ===
/** `escapeHtml` of the client (src/static/app.js): five global replaces,
    `&` first, applied to every server-supplied string before it is placed
    in the card markup or in a `data-*` attribute.

    Alongside the function as written the module keeps a per-character
    reference escaper and a decoder of the five entities `escapeHtml`
    produces, standing for reading an attribute value back, and proves that
    the three agree: the five steps equal the per-character escaper, their
    output is exactly the set of well-escaped strings, and decoding recovers
    the input.
 */
module Escape {
  import opened Wrappers
  import opened Text

  /** The five `replace` calls, in the order the source applies them. Each
      step removes its character and introduces none of the characters the
      earlier steps removed, so none of `<`, `>`, `"` and `'` is left. */
  function ReplaceSteps(s: string): (r: string)
    ensures '<' !in r && '>' !in r && '"' !in r && '\'' !in r
  {
    var s1 := ReplaceAll(s, '&', "&amp;");
    var s2 := ReplaceAll(s1, '<', "&lt;");
    assert '<' !in s2;
    var s3 := ReplaceAll(s2, '>', "&gt;");
    assert '<' !in s3 && '>' !in s3;
    var s4 := ReplaceAll(s3, '"', "&quot;");
    assert '<' !in s4 && '>' !in s4 && '"' !in s4;
    ReplaceAll(s4, '\'', "&#039;")
  }

  /** `escapeHtml(str)` for a string argument: the empty string is falsy and
      returns `""`; anything else goes through the five replaces. The result
      is well escaped and decodes back to the argument. */
  function EscapeHtml(s: string): (r: string)
    ensures s == "" ==> r == ""
    ensures WellEscaped(r)
    ensures Unescape(r) == s
  {
    ReplaceStepsPerChar(s);
    EscapeEachWellEscaped(s);
    UnescapeEscapeEach(s);
    if s == "" then "" else ReplaceSteps(s)
  }

  /** `escapeHtml(v)` for a property that may be absent: `undefined` and
      `null` are falsy and give `""`. */
  function EscapeField(v: Option<string>): (r: string)
    ensures v == None ==> r == ""
    ensures v.Some? ==> Unescape(r) == v.value
    ensures WellEscaped(r)
  {
    match v
    case None => ""
    case Some(s) => EscapeHtml(s)
  }

  // ---------------------------------------------------------------------
  // Reference escaper and decoder

  /** The characters `escapeHtml` rewrites. */
  predicate Special(c: char) {
    c == '&' || c == '<' || c == '>' || c == '"' || c == '\''
  }

  /** The entity each special character is written as. */
  function EscapeChar(c: char): string {
    if c == '&' then "&amp;"
    else if c == '<' then "&lt;"
    else if c == '>' then "&gt;"
    else if c == '"' then "&quot;"
    else if c == '\'' then "&#039;"
    else [c]
  }

  /** Reference escaper: every character is escaped on its own. */
  function EscapeEach(s: string): string
    decreases |s|
  {
    if s == [] then [] else EscapeChar(s[0]) + EscapeEach(s[1..])
  }

  /** `t` begins with one of the five entities. */
  predicate StartsEntity(t: string) {
    "&amp;" <= t || "&lt;" <= t || "&gt;" <= t || "&quot;" <= t || "&#039;" <= t
  }

  /** No `<`, `>`, `"` or `'`, and every `&` opens one of the five entities. */
  predicate WellEscaped(r: string) {
    forall i :: 0 <= i < |r| ==>
      r[i] != '<' && r[i] != '>' && r[i] != '"' && r[i] != '\''
      && (r[i] == '&' ==> StartsEntity(r[i..]))
  }

  /** Decoding of the five entities `escapeHtml` produces, left to right.
      It stands for reading an attribute back through `dataset.email` /
      `dataset.activity`; the parser's other rewrites are not modelled. */
  function Unescape(s: string): string
    decreases |s|
  {
    if s == [] then []
    else if "&amp;" <= s then "&" + Unescape(s[5..])
    else if "&lt;" <= s then "<" + Unescape(s[4..])
    else if "&gt;" <= s then ">" + Unescape(s[4..])
    else if "&quot;" <= s then "\"" + Unescape(s[6..])
    else if "&#039;" <= s then "'" + Unescape(s[6..])
    else [s[0]] + Unescape(s[1..])
  }

  // ---------------------------------------------------------------------
  // The five replaces equal the per-character escaper

  lemma ReplaceStepsAppend(a: string, b: string)
    ensures ReplaceSteps(a + b) == ReplaceSteps(a) + ReplaceSteps(b)
  {
    var a1, b1 := ReplaceAll(a, '&', "&amp;"), ReplaceAll(b, '&', "&amp;");
    ReplaceAppend(a, b, '&', "&amp;");
    var a2, b2 := ReplaceAll(a1, '<', "&lt;"), ReplaceAll(b1, '<', "&lt;");
    ReplaceAppend(a1, b1, '<', "&lt;");
    var a3, b3 := ReplaceAll(a2, '>', "&gt;"), ReplaceAll(b2, '>', "&gt;");
    ReplaceAppend(a2, b2, '>', "&gt;");
    var a4, b4 := ReplaceAll(a3, '"', "&quot;"), ReplaceAll(b3, '"', "&quot;");
    ReplaceAppend(a3, b3, '"', "&quot;");
    ReplaceAppend(a4, b4, '\'', "&#039;");
  }

  /** On one character the five replaces produce its entity: because `&` is
      replaced first, the `&` of a later entity is never escaped again. */
  lemma ReplaceStepsChar(c: char)
    ensures ReplaceSteps([c]) == EscapeChar(c)
  {
    ReplaceSingle(c, '&', "&amp;");
    if c == '&' {
      EntityUnchangedFrom1("&amp;");
    } else {
      ReplaceSingle(c, '<', "&lt;");
      if c == '<' {
        EntityUnchangedFrom2("&lt;");
      } else {
        ReplaceSingle(c, '>', "&gt;");
        if c == '>' {
          EntityUnchangedFrom3("&gt;");
        } else {
          ReplaceSingle(c, '"', "&quot;");
          if c == '"' {
            EntityUnchangedFrom4("&quot;");
          } else {
            ReplaceSingle(c, '\'', "&#039;");
          }
        }
      }
    }
  }

  /** An entity, once written, is left alone by the later replaces. */
  lemma EntityUnchangedFrom1(e: string)
    requires e == "&amp;"
    ensures ReplaceAll(ReplaceAll(ReplaceAll(ReplaceAll(e, '<', "&lt;"), '>', "&gt;"), '"', "&quot;"), '\'', "&#039;") == e
  {
    ReplaceAbsent(e, '<', "&lt;");
    ReplaceAbsent(e, '>', "&gt;");
    ReplaceAbsent(e, '"', "&quot;");
    ReplaceAbsent(e, '\'', "&#039;");
  }

  lemma EntityUnchangedFrom2(e: string)
    requires e == "&lt;"
    ensures ReplaceAll(ReplaceAll(ReplaceAll(e, '>', "&gt;"), '"', "&quot;"), '\'', "&#039;") == e
  {
    ReplaceAbsent(e, '>', "&gt;");
    ReplaceAbsent(e, '"', "&quot;");
    ReplaceAbsent(e, '\'', "&#039;");
  }

  lemma EntityUnchangedFrom3(e: string)
    requires e == "&gt;"
    ensures ReplaceAll(ReplaceAll(e, '"', "&quot;"), '\'', "&#039;") == e
  {
    ReplaceAbsent(e, '"', "&quot;");
    ReplaceAbsent(e, '\'', "&#039;");
  }

  lemma EntityUnchangedFrom4(e: string)
    requires e == "&quot;"
    ensures ReplaceAll(e, '\'', "&#039;") == e
  {
    assert '\'' !in e by {
      assert forall i :: 0 <= i < |e| ==> e[i] != '\'';
    }
    ReplaceAbsent(e, '\'', "&#039;");
  }

  /** The source's sequence of global replaces is the per-character escaper. */
  lemma {:induction false} ReplaceStepsPerChar(s: string)
    ensures ReplaceSteps(s) == EscapeEach(s)
    decreases |s|
  {
    if s == [] {
      assert ReplaceSteps(s) == [] by {
        ReplaceAbsent([], '&', "&amp;");
        ReplaceAbsent([], '<', "&lt;");
        ReplaceAbsent([], '>', "&gt;");
        ReplaceAbsent([], '"', "&quot;");
        ReplaceAbsent([], '\'', "&#039;");
      }
    } else {
      assert s == [s[0]] + s[1..];
      ReplaceStepsAppend([s[0]], s[1..]);
      ReplaceStepsChar(s[0]);
      ReplaceStepsPerChar(s[1..]);
    }
  }

  // ---------------------------------------------------------------------
  // Well-escapedness of the output

  lemma WellEscapedPrepend(c: char, t: string)
    requires WellEscaped(t)
    ensures WellEscaped(EscapeChar(c) + t)
  {
    var e := EscapeChar(c);
    var r := e + t;
    forall i | 0 <= i < |r|
      ensures r[i] != '<' && r[i] != '>' && r[i] != '"' && r[i] != '\''
      ensures r[i] == '&' ==> StartsEntity(r[i..])
    {
      if i < |e| {
        assert r[i] == e[i];
        if e[i] == '&' {
          assert i == 0;
          assert r[i..] == e + t;
        }
      } else {
        assert r[i] == t[i - |e|];
        assert r[i..] == t[i - |e|..];
      }
    }
  }

  lemma {:induction false} EscapeEachWellEscaped(s: string)
    ensures WellEscaped(EscapeEach(s))
    decreases |s|
  {
    if s != [] {
      EscapeEachWellEscaped(s[1..]);
      WellEscapedPrepend(s[0], EscapeEach(s[1..]));
    }
  }

  // ---------------------------------------------------------------------
  // Decoding inverts escaping, and escaping inverts decoding on its image

  lemma UnescapeAmp(u: string)
    ensures Unescape("&amp;" + u) == "&" + Unescape(u)
  {
    var t := "&amp;" + u;
    assert t[5..] == u;
  }

  lemma UnescapeLt(u: string)
    ensures Unescape("&lt;" + u) == "<" + Unescape(u)
  {
    var t := "&lt;" + u;
    assert t[4..] == u && t[1] == 'l';
  }

  lemma UnescapeGt(u: string)
    ensures Unescape("&gt;" + u) == ">" + Unescape(u)
  {
    var t := "&gt;" + u;
    assert t[4..] == u && t[1] == 'g';
  }

  lemma UnescapeQuot(u: string)
    ensures Unescape("&quot;" + u) == "\"" + Unescape(u)
  {
    var t := "&quot;" + u;
    assert t[6..] == u && t[1] == 'q';
  }

  lemma UnescapeApos(u: string)
    ensures Unescape("&#039;" + u) == "'" + Unescape(u)
  {
    var t := "&#039;" + u;
    assert t[6..] == u && t[1] == '#';
  }

  /** Decoding reads back each character's escape. */
  lemma UnescapeEscapeChar(c: char, u: string)
    ensures Unescape(EscapeChar(c) + u) == [c] + Unescape(u)
  {
    if c == '&' {
      UnescapeAmp(u);
    } else if c == '<' {
      UnescapeLt(u);
    } else if c == '>' {
      UnescapeGt(u);
    } else if c == '"' {
      UnescapeQuot(u);
    } else if c == '\'' {
      UnescapeApos(u);
    } else {
      var t := [c] + u;
      assert t[0] == c && t[1..] == u;
    }
  }

  lemma {:induction false} UnescapeEscapeEach(s: string)
    ensures Unescape(EscapeEach(s)) == s
    decreases |s|
  {
    if s != [] {
      UnescapeEscapeEach(s[1..]);
      UnescapeEscapeChar(s[0], EscapeEach(s[1..]));
      assert s == [s[0]] + s[1..];
    }
  }

  lemma WellEscapedSuffix(r: string, k: nat)
    requires WellEscaped(r)
    requires k <= |r|
    ensures WellEscaped(r[k..])
  {
    var t := r[k..];
    forall i | 0 <= i < |t|
      ensures t[i] != '<' && t[i] != '>' && t[i] != '"' && t[i] != '\''
      ensures t[i] == '&' ==> StartsEntity(t[i..])
    {
      assert t[i] == r[k + i];
      assert t[i..] == r[k + i..];
    }
  }

  /** The character a well-escaped string starts with, once decoded. */
  function HeadChar(r: string): char
    requires r != []
  {
    if "&amp;" <= r then '&'
    else if "&lt;" <= r then '<'
    else if "&gt;" <= r then '>'
    else if "&quot;" <= r then '"'
    else if "&#039;" <= r then '\''
    else r[0]
  }

  /** A well-escaped string opens with the escape of its decoded first
      character, and decoding continues right after it. */
  lemma UnescapeHead(r: string)
    requires r != [] && WellEscaped(r)
    ensures EscapeChar(HeadChar(r)) <= r
    ensures Unescape(r) == [HeadChar(r)] + Unescape(r[|EscapeChar(HeadChar(r))|..])
  {
    if "&amp;" <= r {
      assert r == "&amp;" + r[5..];
      UnescapeAmp(r[5..]);
    } else if "&lt;" <= r {
      assert r == "&lt;" + r[4..];
      UnescapeLt(r[4..]);
    } else if "&gt;" <= r {
      assert r == "&gt;" + r[4..];
      UnescapeGt(r[4..]);
    } else if "&quot;" <= r {
      assert r == "&quot;" + r[6..];
      UnescapeQuot(r[6..]);
    } else if "&#039;" <= r {
      assert r == "&#039;" + r[6..];
      UnescapeApos(r[6..]);
    } else {
      assert r[0..] == r;
      assert !Special(r[0]);
    }
  }

  lemma EscapeEachCons(c: char, t: string)
    ensures EscapeEach([c] + t) == EscapeChar(c) + EscapeEach(t)
  {
    assert ([c] + t)[1..] == t;
  }

  lemma {:induction false} EscapeEachUnescape(r: string)
    requires WellEscaped(r)
    ensures EscapeEach(Unescape(r)) == r
    decreases |r|
  {
    if r != [] {
      var c := HeadChar(r);
      var n := |EscapeChar(c)|;
      UnescapeHead(r);
      WellEscapedSuffix(r, n);
      EscapeEachUnescape(r[n..]);
      EscapeEachCons(c, Unescape(r[n..]));
      assert r == EscapeChar(c) + r[n..];
    }
  }

  // ---------------------------------------------------------------------
  // Properties of escapeHtml as the rest of the client relies on them

  /** The strings `escapeHtml` can produce are exactly the well-escaped
      ones: each such string is the escape of its own decoding. */
  lemma EscapeHtmlImage(r: string)
    ensures WellEscaped(r) <==> EscapeHtml(Unescape(r)) == r
  {
    if WellEscaped(r) {
      EscapeEachUnescape(r);
      ReplaceStepsPerChar(Unescape(r));
    }
  }

  /** Escaping is injective: two identifiers render to the same attribute
      value only if they are equal. */
  lemma EscapeHtmlInjective(s: string, t: string)
    ensures EscapeHtml(s) == EscapeHtml(t) <==> s == t
  {
  }

  /** A string without any of the five special characters is returned
      unchanged. */
  lemma {:induction false} EscapeHtmlPlain(s: string)
    requires forall i :: 0 <= i < |s| ==> !Special(s[i])
    ensures EscapeHtml(s) == s
    decreases |s|
  {
    ReplaceStepsPerChar(s);
    EscapeEachPlain(s);
  }

  lemma {:induction false} EscapeEachPlain(s: string)
    requires forall i :: 0 <= i < |s| ==> !Special(s[i])
    ensures EscapeEach(s) == s
    decreases |s|
  {
    if s != [] {
      EscapeEachPlain(s[1..]);
      assert s == [s[0]] + s[1..];
    }
  }

  /** `escapeHtml` is the per-character escaper. */
  lemma EscapeHtmlPerChar(s: string)
    ensures EscapeHtml(s) == EscapeEach(s)
  {
    ReplaceStepsPerChar(s);
  }

  lemma {:induction false} EscapeEachAppend(a: string, b: string)
    ensures EscapeEach(a + b) == EscapeEach(a) + EscapeEach(b)
    decreases |a|
  {
    if a == [] {
      assert a + b == b;
    } else {
      assert (a + b)[1..] == a[1..] + b;
      EscapeEachAppend(a[1..], b);
    }
  }

  /** A tag in an escaped value renders as literal text: its brackets
      become entities and a name without special characters is kept as it
      is. This covers the values passed through `escapeHtml` only; the
      badge is not one of them (see `Render.BadgeCanOpenTag`). */
  lemma EscapeHtmlTag(name: string)
    requires forall i :: 0 <= i < |name| ==> !Special(name[i])
    ensures EscapeHtml("<" + name + ">") == "&lt;" + name + "&gt;"
  {
    EscapeHtmlPerChar("<" + name + ">");
    EscapeEachAppend("<" + name, ">");
    EscapeEachCons('<', name);
    EscapeEachCons('>', []);
    EscapeEachPlain(name);
  }

  /** Text that already reads as an entity is escaped once more: the `&`
      is data, so `&lt;` in a name shows as `&lt;` and not as `<`. */
  lemma EscapeHtmlEntityText(t: string)
    requires forall i :: 0 <= i < |t| ==> !Special(t[i])
    ensures EscapeHtml("&" + t) == "&amp;" + t
  {
    EscapeHtmlPerChar("&" + t);
    EscapeEachCons('&', t);
    EscapeEachPlain(t);
  }
}

=== FILE: initials.dfy ===
/** `getInitials` of the client (src/static/app.js): the badge shown in
    front of each participant. The text is tokenised by turning `_ . -` into
    spaces, splitting on runs of whitespace and dropping empty pieces; one
    token gives the first letter of its part before `@`, two or more give
    the first letters of the first two tokens.
 */
module Initials {
  import opened Wrappers
  import opened Text

  // ---------------------------------------------------------------------
  // Tokeniser

  predicate IsSeparator(c: char) {
    c == '_' || c == '.' || c == '-'
  }

  /** A character that can appear inside a token. */
  predicate IsWordChar(c: char) {
    !IsSeparator(c) && !IsWhitespace(c)
  }

  /** `text.replace(/[_.-]/g, " ")`. */
  function NormalizeSeparators(s: string): (r: string)
    ensures |r| == |s|
    ensures forall i :: 0 <= i < |s| ==> r[i] == (if IsSeparator(s[i]) then ' ' else s[i])
  {
    seq(|s|, i requires 0 <= i < |s| => if IsSeparator(s[i]) then ' ' else s[i])
  }

  /** Length of the longest prefix without whitespace. */
  function LeadingWord(s: string): (n: nat)
    ensures n <= |s|
    ensures forall k :: 0 <= k < n ==> !IsWhitespace(s[k])
    ensures n < |s| ==> IsWhitespace(s[n])
    decreases |s|
  {
    if s == [] || IsWhitespace(s[0]) then 0 else 1 + LeadingWord(s[1..])
  }

  /** Length of the longest prefix of whitespace. */
  function LeadingSpace(s: string): (n: nat)
    ensures n <= |s|
    ensures forall k :: 0 <= k < n ==> IsWhitespace(s[k])
    ensures n < |s| ==> !IsWhitespace(s[n])
    decreases |s|
  {
    if s == [] || !IsWhitespace(s[0]) then 0 else 1 + LeadingSpace(s[1..])
  }

  /** `s.split(/\s+/)`: the pieces between maximal runs of whitespace. A
      leading or trailing run yields an empty first or last piece, and the
      empty string yields one empty piece. No piece contains whitespace.
      The lemmas below state each of these. */
  function SplitWhitespace(s: string): (pieces: seq<string>)
    ensures |pieces| >= 1
    decreases |s|
  {
    var i := LeadingWord(s);
    if i == |s| then [s]
    else [s[..i]] + SplitWhitespace(s[i + LeadingSpace(s[i..])..])
  }

  /** No whitespace in `w`. */
  predicate NoWhitespace(w: string) {
    forall m :: 0 <= m < |w| ==> !IsWhitespace(w[m])
  }

  /** The pieces of `split(/\s+/)` contain no whitespace. */
  lemma {:induction false} SplitPiecesNoSpace(s: string)
    ensures forall k :: 0 <= k < |SplitWhitespace(s)| ==> NoWhitespace(SplitWhitespace(s)[k])
    decreases |s|
  {
    var i := LeadingWord(s);
    if i == |s| {
      assert SplitWhitespace(s) == [s];
    } else {
      var j := i + LeadingSpace(s[i..]);
      SplitWhitespaceStep(s, i, j);
      SplitPiecesNoSpace(s[j..]);
      assert NoWhitespace(s[..i]);
    }
  }

  /** The first piece of `split(/\s+/)` is empty exactly when the string is
      empty or starts with whitespace; the empty string has no other piece. */
  lemma SplitFirstPiece(s: string)
    ensures SplitWhitespace(s)[0] == [] <==> s == [] || IsWhitespace(s[0])
    ensures s == [] ==> SplitWhitespace(s) == [[]]
  {
    var i := LeadingWord(s);
    if i < |s| {
      assert SplitWhitespace(s)[0] == s[..i];
    }
  }

  /** The last piece of `split(/\s+/)` is empty exactly when the string is
      empty or ends with whitespace. */
  lemma {:induction false} SplitLastPiece(s: string)
    ensures |Last(SplitWhitespace(s))| == 0 <==> |s| == 0 || IsWhitespace(s[|s| - 1])
    decreases |s|
  {
    if LeadingWord(s) == |s| {
      SplitOneWordLast(s);
    } else {
      var t := SplitLastRest(s);
      SplitLastPiece(t);
    }
  }

  /** What is left after the first word and the whitespace run that
      follows it: a shorter string with the same last piece, empty only
      when the string ends in that run, and otherwise ending in the same
      character as the string. */
  lemma SplitLastRest(s: string) returns (t: string)
    requires LeadingWord(s) < |s|
    ensures |t| < |s|
    ensures Last(SplitWhitespace(s)) == Last(SplitWhitespace(t))
    ensures |t| == 0 ==> IsWhitespace(s[|s| - 1])
    ensures |t| > 0 ==> s[|s| - 1] == t[|t| - 1]
  {
    var i := LeadingWord(s);
    var n := LeadingSpace(s[i..]);
    t := s[i + n..];
    SplitStepLast(s, i, i + n, t);
    RunTail(s, i, n, t);
  }

  /** A string without whitespace is its own only, and last, piece. */
  lemma SplitOneWordLast(s: string)
    requires LeadingWord(s) == |s|
    ensures Last(SplitWhitespace(s)) == s
    ensures s != [] ==> !IsWhitespace(s[|s| - 1])
  {
  }

  /** After the first word and the whitespace run that follows it, the rest
      is shorter, and it is empty only when the string ends in that run;
      otherwise the string and the rest end in the same character. */
  lemma RunTail(s: string, i: nat, n: nat, t: string)
    requires i == LeadingWord(s) && i < |s|
    requires n == LeadingSpace(s[i..]) && t == s[i + n..]
    ensures |t| < |s|
    ensures |t| == 0 ==> IsWhitespace(s[|s| - 1])
    ensures |t| > 0 ==> s[|s| - 1] == t[|t| - 1]
  {
    var u := s[i..];
    LeadingSpaceOfSpace(u);
    if |t| == 0 {
      assert u[|u| - 1] == s[|s| - 1];
    }
  }

  /** A string that starts with whitespace has a non-empty leading run, and
      when that run is the whole string the string ends with whitespace. */
  lemma LeadingSpaceOfSpace(u: string)
    requires u != [] && IsWhitespace(u[0])
    ensures LeadingSpace(u) >= 1
    ensures LeadingSpace(u) == |u| ==> IsWhitespace(u[|u| - 1])
  {
  }

  /** The last piece is unchanged by splitting off the first piece. */
  lemma SplitStepLast(s: string, i: nat, j: nat, t: string)
    requires i == LeadingWord(s) && i < |s|
    requires j == i + LeadingSpace(s[i..]) && t == s[j..]
    ensures Last(SplitWhitespace(s)) == Last(SplitWhitespace(t))
  {
    SplitWhitespaceStep(s, i, j);
    LastOfCons(s[..i], SplitWhitespace(t), SplitWhitespace(s));
  }

  /** The last element of a non-empty sequence. */
  function Last<T>(ps: seq<T>): T
    requires ps != []
  {
    ps[|ps| - 1]
  }

  lemma LastOfCons<T>(x: T, qs: seq<T>, ps: seq<T>)
    requires qs != [] && ps == [x] + qs
    ensures Last(ps) == Last(qs)
  {
  }

  /** `.filter(Boolean)` on an array of strings: drops the empty ones. */
  function DropEmpty(ps: seq<string>): (r: seq<string>)
    ensures forall k :: 0 <= k < |r| ==> r[k] != [] && r[k] in ps
    decreases |ps|
  {
    if ps == [] then []
    else if ps[0] == [] then DropEmpty(ps[1..])
    else [ps[0]] + DropEmpty(ps[1..])
  }

  /** The filter keeps every non-empty string. */
  lemma {:induction false} DropEmptyKeeps(ps: seq<string>, p: string)
    requires p in ps && p != []
    ensures p in DropEmpty(ps)
    decreases |ps|
  {
    if ps[0] != p {
      assert p in ps[1..];
      DropEmptyKeeps(ps[1..], p);
    }
  }

  /** The filter keeps order and multiplicity: it works piece by piece
      over a concatenation. */
  lemma {:induction false} DropEmptyAppend(a: seq<string>, b: seq<string>)
    ensures DropEmpty(a + b) == DropEmpty(a) + DropEmpty(b)
    decreases |a|
  {
    if a == [] {
      assert a + b == b;
    } else {
      assert (a + b)[1..] == a[1..] + b;
      DropEmptyAppend(a[1..], b);
    }
  }

  /** One piece is kept exactly when it is not empty. */
  lemma DropEmptySingle(p: string)
    ensures DropEmpty([p]) == (if p == [] then [] else [p])
  {
    assert [p][1..] == [];
  }

  /** The `parts` array of `getInitials`: no token is empty. */
  function Tokens(text: string): (r: seq<string>)
    ensures forall k :: 0 <= k < |r| ==> r[k] != []
  {
    DropEmpty(SplitWhitespace(NormalizeSeparators(text)))
  }

  /** `t.split("@")[0]`: the part of a token before its first `@`. */
  function BeforeAt(t: string): (r: string)
    ensures r <= t
    ensures '@' !in r
    ensures |r| < |t| ==> t[|r|] == '@'
    decreases |t|
  {
    if t == [] || t[0] == '@' then [] else [t[0]] + BeforeAt(t[1..])
  }

  // ---------------------------------------------------------------------
  // getInitials

  /** `getInitials(text)`. The empty string is falsy and gives `""`. A
      non-empty text made only of separators and whitespace has no tokens,
      and `parts[0][0]` then reads a property of `undefined` and throws.
      Otherwise the badge has at most two characters, none of them a
      lower-case letter. */
  function GetInitials(text: string): (r: Result<string>)
    ensures text == "" ==> r == Ok("")
    ensures r.Err? <==> text != "" && forall i :: 0 <= i < |text| ==> !IsWordChar(text[i])
    ensures r.Ok? ==> |r.value| <= 2 && forall i :: 0 <= i < |r.value| ==> !IsLower(r.value[i])
  {
    TokensEmpty(text);
    if text == "" then Ok("")
    else
      var parts := Tokens(text);
      if |parts| == 1 then Ok(Upper(FirstChar(BeforeAt(parts[0]))))
      else if |parts| == 0 then Err(TypeError)
      else Ok(Upper(FirstChar(parts[0]) + FirstChar(parts[1])))
  }

  // ---------------------------------------------------------------------
  // Characterisation of the tokens

  /** Text with every separator and whitespace character removed. */
  function WordChars(s: string): string
    decreases |s|
  {
    if s == [] then [] else (if IsWordChar(s[0]) then [s[0]] else []) + WordChars(s[1..])
  }

  /** Normalised text with the whitespace removed. */
  function NonSpace(s: string): string
    decreases |s|
  {
    if s == [] then [] else (if IsWhitespace(s[0]) then [] else [s[0]]) + NonSpace(s[1..])
  }

  lemma {:induction false} NonSpaceOfWord(a: string)
    requires forall k :: 0 <= k < |a| ==> !IsWhitespace(a[k])
    ensures NonSpace(a) == a
    decreases |a|
  {
    if a != [] {
      NonSpaceOfWord(a[1..]);
      assert a == [a[0]] + a[1..];
    }
  }

  /** A leading word is kept as it is. */
  lemma {:induction false} NonSpaceKeepsWord(s: string, i: nat)
    requires i <= |s|
    requires forall k :: 0 <= k < i ==> !IsWhitespace(s[k])
    ensures NonSpace(s) == s[..i] + NonSpace(s[i..])
    decreases i
  {
    if i == 0 {
      assert s[..0] + NonSpace(s[0..]) == NonSpace(s);
    } else {
      var t := s[1..];
      NonSpaceKeepsWord(t, i - 1);
      assert t[..i - 1] == s[1..i] && t[i - 1..] == s[i..];
      assert [s[0]] + s[1..i] == s[..i];
    }
  }

  /** A leading run of whitespace contributes nothing. */
  lemma {:induction false} NonSpaceSkipsSpace(s: string, m: nat)
    requires m <= |s|
    requires forall k :: 0 <= k < m ==> IsWhitespace(s[k])
    ensures NonSpace(s) == NonSpace(s[m..])
    decreases m
  {
    if m > 0 {
      NonSpaceSkipsSpace(s[1..], m - 1);
      assert s[1..][m - 1..] == s[m..];
    }
  }

  /** Splitting on whitespace loses exactly the whitespace. */
  lemma {:induction false} SplitKeepsNonSpace(s: string)
    ensures Flatten(SplitWhitespace(s)) == NonSpace(s)
    decreases |s|
  {
    var i := LeadingWord(s);
    if i == |s| {
      NonSpaceOfWord(s);
      assert Flatten([s]) == s + Flatten([]);
    } else {
      var j := i + LeadingSpace(s[i..]);
      NonSpaceKeepsWord(s, i);
      NonSpaceSkipsSpace(s[i..], j - i);
      assert s[i..][j - i..] == s[j..];
      SplitKeepsNonSpace(s[j..]);
      var rest := SplitWhitespace(s[j..]);
      SplitWhitespaceStep(s, i, j);
      assert ([s[..i]] + rest)[1..] == rest;
    }
  }

  lemma {:induction false} NonSpaceNormalized(s: string)
    ensures NonSpace(NormalizeSeparators(s)) == WordChars(s)
    decreases |s|
  {
    if s != [] {
      NonSpaceNormalized(s[1..]);
      assert NormalizeSeparators(s)[1..] == NormalizeSeparators(s[1..]);
    }
  }

  lemma {:induction false} DropEmptyFlatten(ps: seq<string>)
    ensures Flatten(DropEmpty(ps)) == Flatten(ps)
    decreases |ps|
  {
    if ps != [] {
      DropEmptyFlatten(ps[1..]);
      if ps[0] != [] {
        var r := DropEmpty(ps[1..]);
        assert ([ps[0]] + r)[1..] == r;
      }
    }
  }

  lemma {:induction false} FlattenHolds(ts: seq<string>, k: nat, m: nat)
    requires k < |ts| && m < |ts[k]|
    ensures ts[k][m] in Flatten(ts)
    decreases k
  {
    if k == 0 {
      assert Flatten(ts)[m] == ts[0][m];
    } else {
      FlattenHolds(ts[1..], k - 1, m);
    }
  }

  lemma {:induction false} WordCharsAreWordChars(s: string)
    ensures forall c :: c in WordChars(s) ==> IsWordChar(c)
    decreases |s|
  {
    if s != [] {
      WordCharsAreWordChars(s[1..]);
    }
  }

  /** Every token is a non-empty run of word characters, and together the
      tokens hold exactly the word characters of the text, in order. */
  lemma TokensCharacterised(text: string)
    ensures forall k :: 0 <= k < |Tokens(text)| ==> Tokens(text)[k] != []
    ensures forall k, m :: 0 <= k < |Tokens(text)| && 0 <= m < |Tokens(text)[k]| ==> IsWordChar(Tokens(text)[k][m])
    ensures Flatten(Tokens(text)) == WordChars(text)
  {
    var n := NormalizeSeparators(text);
    var pieces := SplitWhitespace(n);
    SplitKeepsNonSpace(n);
    NonSpaceNormalized(text);
    DropEmptyFlatten(pieces);
    WordCharsAreWordChars(text);
    forall k, m | 0 <= k < |Tokens(text)| && 0 <= m < |Tokens(text)[k]|
      ensures IsWordChar(Tokens(text)[k][m])
    {
      FlattenHolds(Tokens(text), k, m);
    }
  }

  lemma {:induction false} WordCharsEmpty(s: string)
    ensures WordChars(s) == [] <==> forall i :: 0 <= i < |s| ==> !IsWordChar(s[i])
    decreases |s|
  {
    if s != [] {
      WordCharsEmpty(s[1..]);
      assert forall i :: 1 <= i < |s| ==> s[i] == s[1..][i - 1];
    }
  }

  lemma {:induction false} FlattenNonEmpty(ts: seq<string>)
    requires forall k :: 0 <= k < |ts| ==> ts[k] != []
    ensures Flatten(ts) == [] <==> ts == []
  {
    if ts != [] {
      assert Flatten(ts) == ts[0] + Flatten(ts[1..]);
    }
  }

  /** The text has no tokens exactly when it has no word characters. */
  lemma TokensEmpty(text: string)
    ensures Tokens(text) == [] <==> forall i :: 0 <= i < |text| ==> !IsWordChar(text[i])
  {
    TokensCharacterised(text);
    FlattenNonEmpty(Tokens(text));
    WordCharsEmpty(text);
  }

  // ---------------------------------------------------------------------
  // How the text decomposes into tokens

  /** One step of the split: the leading word, then the pieces after the
      whitespace run that ends it. */
  lemma SplitWhitespaceStep(s: string, i: nat, j: nat)
    requires i == LeadingWord(s) && i < |s|
    requires j == i + LeadingSpace(s[i..])
    ensures SplitWhitespace(s) == [s[..i]] + SplitWhitespace(s[j..])
  {
  }

  lemma LeadingWordIs(s: string, n: nat)
    requires n <= |s|
    requires forall k :: 0 <= k < n ==> !IsWhitespace(s[k])
    requires n < |s| ==> IsWhitespace(s[n])
    ensures LeadingWord(s) == n
  {
  }

  lemma LeadingSpaceIs(s: string, n: nat)
    requires n <= |s|
    requires forall k :: 0 <= k < n ==> IsWhitespace(s[k])
    requires n < |s| ==> !IsWhitespace(s[n])
    ensures LeadingSpace(s) == n
  {
  }

  /** A text opening with whitespace splits into an empty first piece,
      which the filter drops, and the pieces after the whitespace run. */
  lemma DropSplitLeadingRun(t: string)
    requires t != [] && IsWhitespace(t[0])
    ensures DropEmpty(SplitWhitespace(t)) == DropEmpty(SplitWhitespace(t[LeadingSpace(t)..]))
  {
    LeadingWordIs(t, 0);
    assert t[0..] == t;
    var run := LeadingSpace(t);
    SplitWhitespaceStep(t, 0, run);
    var rest := SplitWhitespace(t[run..]);
    assert ([t[..0]] + rest)[1..] == rest;
  }

  /** A whitespace prefix lies within the leading whitespace run. */
  lemma {:induction false} LeadingSpaceCovers(s: string, m: nat)
    requires m <= |s|
    requires forall k :: 0 <= k < m ==> IsWhitespace(s[k])
    ensures LeadingSpace(s) >= m
    decreases m
  {
    if m > 0 {
      LeadingSpaceCovers(s[1..], m - 1);
    }
  }

  /** Starting inside the leading whitespace run gives the same tokens as
      starting after it. */
  lemma DropSplitInsideRun(t: string, m: nat)
    requires m < LeadingSpace(t)
    ensures DropEmpty(SplitWhitespace(t[m..])) == DropEmpty(SplitWhitespace(t[LeadingSpace(t)..]))
  {
    var run, u := LeadingSpace(t), t[m..];
    LeadingSpaceSuffix(t, m);
    assert u[0] == t[m];
    DropSplitLeadingRun(u);
    assert u[run - m..] == t[run..];
  }

  /** Dropping part of the leading whitespace run shortens it by as much. */
  lemma LeadingSpaceSuffix(t: string, m: nat)
    requires m <= LeadingSpace(t)
    ensures LeadingSpace(t[m..]) == LeadingSpace(t) - m
  {
    var run, u := LeadingSpace(t), t[m..];
    assert forall k :: 0 <= k < run - m ==> u[k] == t[m + k];
    LeadingSpaceIs(u, run - m);
  }

  /** Leading whitespace only adds empty pieces, which the filter drops. */
  lemma DropSplitSkipsSpace(t: string, m: nat)
    requires m <= |t|
    requires forall k :: 0 <= k < m ==> IsWhitespace(t[k])
    ensures DropEmpty(SplitWhitespace(t)) == DropEmpty(SplitWhitespace(t[m..]))
  {
    if m > 0 {
      DropSplitLeadingRun(t);
      LeadingSpaceCovers(t, m);
      if m < LeadingSpace(t) {
        DropSplitInsideRun(t, m);
      }
    }
  }

  lemma NormalizeAppend(a: string, b: string)
    ensures NormalizeSeparators(a + b) == NormalizeSeparators(a) + NormalizeSeparators(b)
  {
  }

  /** Separators and whitespace in front of the text do not change its
      tokens. */
  lemma TokensSkipGap(gap: string, x: string)
    requires forall k :: 0 <= k < |gap| ==> !IsWordChar(gap[k])
    ensures Tokens(gap + x) == Tokens(x)
  {
    var n := NormalizeSeparators(gap + x);
    NormalizeAppend(gap, x);
    assert n[|gap|..] == NormalizeSeparators(x);
    DropSplitSkipsSpace(n, |gap|);
  }

  /** A word followed by a separator or whitespace character is the first
      token, and the tokens of what follows come after it. */
  lemma TokensWordThenGap(w: string, c: char, rest: string)
    requires w != []
    requires forall k :: 0 <= k < |w| ==> IsWordChar(w[k])
    requires !IsWordChar(c)
    ensures Tokens(w + [c] + rest) == [w] + Tokens(rest)
  {
    var n := NormalizeSeparators(w + [c] + rest);
    NormalizeAppend(w + [c], rest);
    NormalizeAppend(w, [c]);
    assert NormalizeSeparators(w) == w;
    var nw := |w|;
    assert n[..nw] == w;
    assert IsWhitespace(n[nw]);
    LeadingWordIs(n, nw);
    var j := nw + LeadingSpace(n[nw..]);
    var tail := SplitWhitespace(n[j..]);
    SplitWhitespaceStep(n, nw, j);
    assert ([w] + tail)[1..] == tail;
    var v := n[nw..];
    DropSplitSkipsSpace(v, j - nw);
    assert v[j - nw..] == n[j..];
    DropSplitSkipsSpace(v, 1);
    assert v[1..] == NormalizeSeparators(rest);
  }

  /** The tokens of a word on its own. */
  lemma TokensOfWord(w: string)
    requires w != []
    requires forall k :: 0 <= k < |w| ==> IsWordChar(w[k])
    ensures Tokens(w) == [w]
  {
    assert NormalizeSeparators(w) == w;
    LeadingWordIs(w, |w|);
    assert SplitWhitespace(w) == [w];
    assert [w][1..] == [];
    assert DropEmpty([w]) == [w] + DropEmpty([]);
  }

  /** A text beginning with a word character has a first token that begins
      with that character. */
  lemma TokensHead(t: string)
    requires t != [] && IsWordChar(t[0])
    ensures |Tokens(t)| >= 1 && Tokens(t)[0] != [] && Tokens(t)[0][0] == t[0]
  {
    var n := NormalizeSeparators(t);
    var i := LeadingWord(n);
    assert i >= 1;
    if i < |n| {
      var j := i + LeadingSpace(n[i..]);
      var tail := SplitWhitespace(n[j..]);
      SplitWhitespaceStep(n, i, j);
      assert ([n[..i]] + tail)[1..] == tail;
    }
  }

  // ---------------------------------------------------------------------
  // The badge rules, stated on the text

  /** A word surrounded by separators and whitespace is the only token. */
  lemma TokensOneWord(pre: string, w: string, post: string)
    requires w != []
    requires forall k :: 0 <= k < |w| ==> IsWordChar(w[k])
    requires forall k :: 0 <= k < |pre| ==> !IsWordChar(pre[k])
    requires forall k :: 0 <= k < |post| ==> !IsWordChar(post[k])
    ensures Tokens(pre + w + post) == [w]
  {
    TokensSkipGap(pre, w + post);
    assert pre + w + post == pre + (w + post);
    if post == [] {
      assert w + post == w;
      TokensOfWord(w);
    } else {
      assert w + post == w + [post[0]] + post[1..];
      TokensWordThenGap(w, post[0], post[1..]);
      assert forall k :: 0 <= k < |post[1..]| ==> post[1..][k] == post[k + 1];
      TokensEmpty(post[1..]);
      assert [w] + [] == [w];
    }
  }

  /** Exactly one token `w`, surrounded by any separators and whitespace:
      the badge is the upper-cased first character of `w` before its first
      `@`, which is empty when `w` starts with `@`. */
  lemma GetInitialsOneToken(pre: string, w: string, post: string)
    requires w != []
    requires forall k :: 0 <= k < |w| ==> IsWordChar(w[k])
    requires forall k :: 0 <= k < |pre| ==> !IsWordChar(pre[k])
    requires forall k :: 0 <= k < |post| ==> !IsWordChar(post[k])
    ensures GetInitials(pre + w + post) == Ok(if w[0] == '@' then "" else [UpperChar(w[0])])
  {
    var text := pre + w + post;
    TokensOneWord(pre, w, post);
    assert text != "" by {
      assert |text| >= |w|;
    }
    var b := BeforeAt(w);
    assert GetInitials(text) == Ok(Upper(FirstChar(b)));
    if w[0] == '@' {
      assert b == [];
    } else {
      assert b != [] && b[0] == w[0];
      assert FirstChar(b) == [w[0]];
      assert Upper([w[0]]) == [UpperChar(w[0])];
    }
  }

  /** A word, a gap and a second word give at least two tokens, the
      first being the word and the second starting the second word. */
  lemma TokensTwoWords(pre: string, w: string, gap: string, rest: string)
    requires w != []
    requires forall k :: 0 <= k < |w| ==> IsWordChar(w[k])
    requires forall k :: 0 <= k < |pre| ==> !IsWordChar(pre[k])
    requires gap != []
    requires forall k :: 0 <= k < |gap| ==> !IsWordChar(gap[k])
    requires rest != [] && IsWordChar(rest[0])
    ensures var parts := Tokens(pre + w + gap + rest);
      |parts| >= 2 && parts[0] == w && parts[1] != [] && parts[1][0] == rest[0]
  {
    var tail := gap[1..] + rest;
    assert pre + w + gap + rest == pre + (w + [gap[0]] + tail);
    TokensSkipGap(pre, w + [gap[0]] + tail);
    TokensWordThenGap(w, gap[0], tail);
    assert forall k :: 0 <= k < |gap[1..]| ==> gap[1..][k] == gap[k + 1];
    TokensSkipGap(gap[1..], rest);
    TokensHead(rest);
  }

  /** Two or more tokens: the badge is the upper-cased first characters of
      the first two, whatever follows the second. */
  lemma GetInitialsTwoTokens(pre: string, w: string, gap: string, rest: string)
    requires w != []
    requires forall k :: 0 <= k < |w| ==> IsWordChar(w[k])
    requires forall k :: 0 <= k < |pre| ==> !IsWordChar(pre[k])
    requires gap != []
    requires forall k :: 0 <= k < |gap| ==> !IsWordChar(gap[k])
    requires rest != [] && IsWordChar(rest[0])
    ensures GetInitials(pre + w + gap + rest) == Ok([UpperChar(w[0]), UpperChar(rest[0])])
  {
    var text := pre + w + gap + rest;
    TokensTwoWords(pre, w, gap, rest);
    var parts := Tokens(text);
    assert text != "" by {
      assert |text| >= |w|;
    }
    assert GetInitials(text) == Ok(Upper(FirstChar(parts[0]) + FirstChar(parts[1])));
    assert FirstChar(parts[0]) + FirstChar(parts[1]) == [w[0], rest[0]];
    assert Upper([w[0], rest[0]]) == [UpperChar(w[0]), UpperChar(rest[0])];
  }

  /** A given name and a surname give both initials. */
  lemma GetInitialsFullName()
    ensures GetInitials("Alice Smith") == Ok("AS")
  {
    assert "Alice Smith" == "" + "Alice" + " " + "Smith";
    GetInitialsTwoTokens("", "Alice", " ", "Smith");
  }

  /** An e-mail address with a dot after the `@` has two tokens, so the
      badge takes its second letter from the start of the last domain
      label. */
  lemma GetInitialsEmail()
    ensures GetInitials("alice@example.com") == Ok("AC")
  {
    assert "alice@example.com" == "" + "alice@example" + "." + "com";
    GetInitialsTwoTokens("", "alice@example", ".", "com");
  }

  /** A single word gives its first letter, upper-cased. */
  lemma GetInitialsSingleWord()
    ensures GetInitials("bob") == Ok("B")
  {
    assert "bob" == "" + "bob" + "";
    GetInitialsOneToken("", "bob", "");
  }

  /** A single token that starts with `@` has nothing before the `@`. */
  lemma GetInitialsLeadingAt()
    ensures GetInitials("@bob") == Ok("")
  {
    assert "@bob" == "" + "@bob" + "";
    GetInitialsOneToken("", "@bob", "");
  }
}

=== FILE: mutation.dfy ===
/** The signup (form submit) and unregister (delete-icon click) handlers of
    the client (src/static/app.js): the request each one issues, and how it
    interprets the outcome into a status message, a CSS kind, and whether
    it resets the form, refreshes the roster and schedules the 5-second
    hide.
 */
module Mutation {
  import opened Wrappers

  datatype Handler = SignUp | Unregister

  /** How the request ended: `response.ok` with the parsed body's optional
      `message`, a non-ok status with the body's optional `detail`, or an
      exception from `fetch` or `response.json()`. */
  datatype Response = Accepted(message: Option<string>) | Rejected(detail: Option<string>) | Threw

  /** The `className` given to the message element. */
  datatype Kind = Success | Error

  /** Everything a handler does after the response arrives, other than the
      refresh itself. */
  datatype Feedback = Feedback(
    text: string,
    kind: Kind,
    resetsForm: bool,
    refreshes: bool,
    schedulesHide: bool)

  const SignUpRejectedText := "An error occurred"
  const SignUpThrewText := "Failed to sign up. Please try again."
  const UnregisterAcceptedText := "Successfully unregistered participant"
  const UnregisterRejectedText := "Failed to unregister participant"
  const UnregisterThrewText := "Failed to unregister participant. Please try again."

  /** The three branches of each handler. Only an ok response refreshes,
      and only the signup handler resets its form. Only the ok and not-ok
      branches schedule a hide; the catch branch shows its message without
      one. The signup ok branch shows `result.message` with no fallback (an
      absent message sets `textContent` to the empty string); every other
      server text falls back to a fixed one when it is absent or empty. */
  function Interpret(h: Handler, resp: Response): (fb: Feedback)
    ensures fb.refreshes <==> resp.Accepted?
    ensures fb.resetsForm <==> h == SignUp && resp.Accepted?
    ensures fb.schedulesHide <==> !resp.Threw?
    ensures fb.kind == Success <==> resp.Accepted?
    ensures h == SignUp && resp.Accepted? ==> fb.text == resp.message.GetOr("")
    ensures h == Unregister && resp.Accepted? ==> fb.text == OrElse(resp.message, UnregisterAcceptedText)
    ensures resp.Rejected? ==>
      fb.text == OrElse(resp.detail, if h == SignUp then SignUpRejectedText else UnregisterRejectedText)
    ensures resp.Threw? ==> fb.text == (if h == SignUp then SignUpThrewText else UnregisterThrewText)
  {
    match resp
    case Accepted(message) =>
      if h == SignUp then Feedback(message.GetOr(""), Success, true, true, true)
      else Feedback(OrElse(message, UnregisterAcceptedText), Success, false, true, true)
    case Rejected(detail) =>
      Feedback(OrElse(detail, if h == SignUp then SignUpRejectedText else UnregisterRejectedText),
               Error, false, false, true)
    case Threw =>
      Feedback(if h == SignUp then SignUpThrewText else UnregisterThrewText, Error, false, false, false)
  }

  /** The user always sees some text, except after a successful signup
      whose response carries no (or an empty) `message`. */
  lemma InterpretTextEmpty(h: Handler, resp: Response)
    ensures Interpret(h, resp).text == "" <==>
      h == SignUp && (resp == Accepted(None) || resp == Accepted(Some("")))
  {
  }

  /** A non-empty server text is shown verbatim, whichever handler and
      whichever status it came with. */
  lemma InterpretShowsServerText(h: Handler, resp: Response, t: string)
    requires t != ""
    requires resp == Accepted(Some(t)) || resp == Rejected(Some(t))
    ensures Interpret(h, resp).text == t
  {
  }

  // ---------------------------------------------------------------------
  // Requests

  /** A request as the server's router sees it: the action and the still
      percent-encoded path segment and query value. */
  datatype Request = Request(handler: Handler, activitySegment: string, emailValue: string)

  function ActionPath(h: Handler): string {
    if h == SignUp then "/signup" else "/unregister"
  }

  /** The URL of the POST request; `enc` stands for `encodeURIComponent`. */
  function RequestUrl(h: Handler, activity: string, email: string, enc: string -> string): (url: string)
    ensures "/activities/" + enc(activity) + ActionPath(h) <= url
    ensures |url| >= 7 + |enc(email)| && url[|url| - 7 - |enc(email)|..] == "?email=" + enc(email)
  {
    "/activities/" + enc(activity) + ActionPath(h) + "?email=" + enc(email)
  }

  /** Index of the first `/` in `s`, or `|s|`. */
  function SlashIndex(s: string): (i: nat)
    ensures i <= |s|
    ensures forall k :: 0 <= k < i ==> s[k] != '/'
    ensures i < |s| ==> s[i] == '/'
    decreases |s|
  {
    if s == [] || s[0] == '/' then 0 else 1 + SlashIndex(s[1..])
  }

  /** How a router reads the URL back: the path segment after
      `/activities/` up to the next `/`, the action, and the `email` query
      value. */
  function ParseRequestUrl(url: string): Option<Request> {
    if !("/activities/" <= url) then None
    else
      var rest := url[12..];
      var i := SlashIndex(rest);
      ParseAction(rest[..i], rest[i..])
  }

  /** The action and query after the path segment `segment`. */
  function ParseAction(segment: string, tail: string): Option<Request> {
    if "/signup?email=" <= tail then Some(Request(SignUp, segment, tail[14..]))
    else if "/unregister?email=" <= tail then Some(Request(Unregister, segment, tail[18..]))
    else None
  }

  lemma {:induction false} SlashIndexAt(a: string, suffix: string)
    requires '/' !in a
    requires suffix != [] && suffix[0] == '/'
    ensures SlashIndex(a + suffix) == |a|
    decreases |a|
  {
    if a == [] {
      assert a + suffix == suffix;
    } else {
      assert (a + suffix)[0] == a[0];
      assert (a + suffix)[1..] == a[1..] + suffix;
      SlashIndexAt(a[1..], suffix);
    }
  }

  /** Reading back the path segment: everything after `/activities/` up
      to the first `/` of the action. */
  lemma ParseRequestUrlSplit(a: string, suffix: string)
    requires '/' !in a
    requires suffix != [] && suffix[0] == '/'
    ensures var url := "/activities/" + a + suffix;
      "/activities/" <= url
      && SlashIndex(url[12..]) == |a| && url[12..][..|a|] == a && url[12..][|a|..] == suffix
  {
    var url := "/activities/" + a + suffix;
    assert url[12..] == a + suffix;
    SlashIndexAt(a, suffix);
  }

  lemma ParseActionOf(h: Handler, a: string, e: string)
    ensures ParseAction(a, ActionPath(h) + "?email=" + e) == Some(Request(h, a, e))
  {
    var tail := ActionPath(h) + "?email=" + e;
    if h == SignUp {
      assert tail == "/signup?email=" + e;
      assert tail[14..] == e;
    } else {
      assert tail == "/unregister?email=" + e;
      assert tail[1] == 'u';
      assert tail[18..] == e;
    }
  }

  /** Reading back a URL whose path segment has no `/`. */
  lemma ParseRequestUrlOf(h: Handler, a: string, e: string)
    requires '/' !in a
    ensures ParseRequestUrl("/activities/" + a + ActionPath(h) + "?email=" + e) == Some(Request(h, a, e))
  {
    var suffix := ActionPath(h) + "?email=" + e;
    var url := "/activities/" + a + ActionPath(h) + "?email=" + e;
    assert url == "/activities/" + a + suffix;
    ParseRequestUrlSplit(a, suffix);
    ParseActionOf(h, a, e);
  }

  /** The request names the handler's action, and the encoded activity
      name and e-mail can be read back from the URL, provided the encoder
      leaves no `/` in the name (`encodeURIComponent` writes `/` as
      `%2F`). */
  lemma RequestUrlParses(h: Handler, activity: string, email: string, enc: string -> string)
    requires '/' !in enc(activity)
    ensures ParseRequestUrl(RequestUrl(h, activity, email, enc)) == Some(Request(h, enc(activity), enc(email)))
  {
    ParseRequestUrlOf(h, enc(activity), enc(email));
  }
}

=== FILE: notifier.dfy ===
/** The status message element of the client (src/static/app.js): its
    text, its class, and the 5-second hide timers the handlers schedule.

    Time itself is not modelled; the element keeps a count of pending hide
    timers, and a timer firing is a separate transition. The handlers never
    cancel an earlier timer, so a timer scheduled for one message can hide a
    later one.
 */
module Notifier {
  import opened Wrappers
  import opened Mutation

  /** The message element: its text, the kind set by `className` (none
      before the first message), whether the `hidden` class is set, and the
      number of hide timers still pending. */
  datatype Message = Message(text: string, kind: Option<Kind>, hidden: bool, pendingHides: nat)

  /** The element as the page starts: empty, hidden, no timers. */
  const Initial := Message("", None, true, 0)

  /** A handler shows its feedback: the text and class are replaced, the
      element is made visible, and a hide timer is added to the pending ones
      when the branch schedules one. Nothing is cancelled. */
  function Show(m: Message, fb: Feedback): (m': Message)
    ensures m'.text == fb.text && m'.kind == Some(fb.kind) && !m'.hidden
    ensures m'.pendingHides == m.pendingHides + (if fb.schedulesHide then 1 else 0)
  {
    Message(fb.text, Some(fb.kind), false, m.pendingHides + (if fb.schedulesHide then 1 else 0))
  }

  /** One pending timer fires: it adds `hidden` whatever message is showing
      and leaves the text and class alone. */
  function HideFires(m: Message): (m': Message)
    requires m.pendingHides > 0
    ensures m'.hidden && m'.text == m.text && m'.kind == m.kind
    ensures m'.pendingHides == m.pendingHides - 1
  {
    Message(m.text, m.kind, true, m.pendingHides - 1)
  }

  /** A timer scheduled for one message hides the next one too: the earlier
      timer is not cancelled when the second message is shown, so the second
      is hidden early whatever its branch was. */
  lemma StaleTimerHidesNewerMessage(m: Message, fb1: Feedback, fb2: Feedback)
    requires fb1.schedulesHide
    ensures Show(Show(m, fb1), fb2).pendingHides > 0
    ensures var m' := HideFires(Show(Show(m, fb1), fb2));
      m'.hidden && m'.text == fb2.text
  {
  }

  /** The catch branch schedules no timer, so on a page with no pending
      timer its message stays visible until another handler runs. */
  lemma ThrewMessageStays(m: Message, h: Handler)
    requires m.pendingHides == 0
    ensures var m' := Show(m, Interpret(h, Threw));
      !m'.hidden && m'.pendingHides == 0
  {
  }

  /** The element after a run of handler feedbacks, shown in order. */
  function ShowAll(m: Message, fbs: seq<Feedback>): Message
    decreases |fbs|
  {
    if fbs == [] then m else ShowAll(Show(m, fbs[0]), fbs[1..])
  }

  /** How many of the feedbacks schedule a hide. */
  function CountHides(fbs: seq<Feedback>): nat
    decreases |fbs|
  {
    if fbs == [] then 0 else (if fbs[0].schedulesHide then 1 else 0) + CountHides(fbs[1..])
  }

  /** Timers accumulate: after a run of messages the pending timers are
      the earlier ones plus one per message whose branch scheduled one. */
  lemma {:induction false} TimersAccumulate(m: Message, fbs: seq<Feedback>)
    ensures ShowAll(m, fbs).pendingHides == m.pendingHides + CountHides(fbs)
    decreases |fbs|
  {
    if fbs != [] {
      TimersAccumulate(Show(m, fbs[0]), fbs[1..]);
    }
  }
}

=== FILE: render.dfy ===
/** The render step of `fetchActivities` (src/static/app.js), as a pure
    transition of the UI state: the card area and the options of the
    activity `<select>`.

    The fetched roster is given as the sequence `Object.entries` yields.
    Each entry becomes a card (escaped name, description and schedule, the
    unclamped number of spots left, and either the "No participants yet"
    placeholder or one row per participant), and appends one option to the
    select. An exception anywhere (a failed fetch or parse, an entry whose
    `participants` is missing or `null`, `getInitials` throwing) replaces the card area by
    the failure paragraph; options appended before the exception stay.
 */
module Render {
  import opened Wrappers
  import opened Escape
  import opened Text
  import opened Initials

  // ---------------------------------------------------------------------
  // Data

  /** One activity's details as the server sends them. An absent
      `description` or `schedule` is `None`. A `participants` field that is
      missing or `null`, and details with no such property at all (such as
      a `null`, number or string in place of an object), are
      `participants == None`; reading `.length` of it throws. */
  datatype Details = Details(
    description: Option<string>,
    schedule: Option<string>,
    maxParticipants: int,
    participants: Option<seq<string>>)

  /** `[name, details]` as produced by `Object.entries`. */
  datatype Entry = Entry(name: string, details: Details)

  /** One `<li class="participant-item">`: the initials badge, the escaped
      participant text, and the escaped `data-email` and `data-activity`
      attribute values the unregister handler reads back. */
  datatype Row = Row(badge: string, text: string, dataEmail: string, dataActivity: string)

  datatype ParticipantList = NoParticipantsYet | Rows(rows: seq<Row>)

  /** One `activity-card`. `spotsLeft` is shown as it is computed, even when
      negative. */
  datatype Card = Card(
    title: string,
    description: string,
    schedule: string,
    spotsLeft: int,
    participants: ParticipantList)

  /** The contents of the activities list: the page's loading message, the
      rendered cards, or the failure paragraph. */
  datatype CardArea = Loading | Cards(cards: seq<Card>) | LoadFailed

  /** The part of the page the client rewrites: the card area and the
      `value`s of the select's options, in document order. */
  datatype UiState = UiState(area: CardArea, options: seq<string>)

  /** What `fetch("/activities")` and `response.json()` deliver: the
      entries of the parsed object, or an exception. */
  datatype FetchResult = Fetched(entries: seq<Entry>) | FetchFailed

  /** The activity names of a sequence of entries, in order. */
  function Names(entries: seq<Entry>): (ns: seq<string>)
    ensures |ns| == |entries|
    ensures forall i :: 0 <= i < |entries| ==> ns[i] == entries[i].name
  {
    seq(|entries|, i requires 0 <= i < |entries| => entries[i].name)
  }

  // ---------------------------------------------------------------------
  // One card

  /** The row template for participant `p` of activity `activity`; only
      `getInitials` can throw. The text and the attribute values are escaped
      and decode to the identifiers they were built from; the badge is
      written into the markup as `getInitials` returns it, unescaped. */
  function RenderRow(activity: string, p: string): (r: Result<Row>)
    ensures r.Ok? <==> GetInitials(p).Ok?
    ensures r.Ok? ==> r.value.badge == GetInitials(p).value
    ensures r.Ok? ==> Unescape(r.value.dataEmail) == p && Unescape(r.value.text) == p
    ensures r.Ok? ==> Unescape(r.value.dataActivity) == activity
    ensures r.Ok? ==> WellEscaped(r.value.text) && WellEscaped(r.value.dataActivity)
  {
    match GetInitials(p)
    case Err(e) => Err(e)
    case Ok(badge) => Ok(Row(badge, EscapeHtml(p), EscapeHtml(p), EscapeHtml(activity)))
  }

  /** A rendered row carries `escapeHtml` of the participant as its text and
      its `data-email`, and `escapeHtml` of the activity as its
      `data-activity`; none of the three holds a bare `<`, `>`, `"`, `'` or
      `&`, so no attribute value can be closed early. */
  lemma RenderRowEscaped(activity: string, p: string)
    requires RenderRow(activity, p).Ok?
    ensures var row := RenderRow(activity, p).value;
      && row.text == EscapeHtml(p) && row.dataEmail == EscapeHtml(p)
      && row.dataActivity == EscapeHtml(activity)
      && WellEscaped(row.text) && WellEscaped(row.dataEmail) && WellEscaped(row.dataActivity)
  {
  }

  /** The badge is not escaped: a participant whose first token starts with
      `<` puts a raw `<` into the markup, in front of an upper-cased letter,
      so the badge can open a tag. */
  lemma BadgeCanOpenTag(activity: string, w: string, gap: string, rest: string)
    requires w != [] && w[0] == '<'
    requires forall k :: 0 <= k < |w| ==> IsWordChar(w[k])
    requires gap != []
    requires forall k :: 0 <= k < |gap| ==> !IsWordChar(gap[k])
    requires rest != [] && IsWordChar(rest[0])
    ensures RenderRow(activity, w + gap + rest).Ok?
    ensures RenderRow(activity, w + gap + rest).value.badge == ['<', UpperChar(rest[0])]
    ensures !WellEscaped(RenderRow(activity, w + gap + rest).value.badge)
  {
    assert "" + w + gap + rest == w + gap + rest;
    GetInitialsTwoTokens("", w, gap, rest);
    var badge := RenderRow(activity, w + gap + rest).value.badge;
    assert badge[0] == '<';
  }

  /** `"<b c"` gets the badge `"<C"`. */
  lemma BadgeOfAngleName(activity: string)
    ensures RenderRow(activity, "<b c").value.badge == "<C"
  {
    assert "<b c" == "<b" + " " + "c";
    BadgeCanOpenTag(activity, "<b", " ", "c");
  }

  /** `participants.map(...)`: one row per participant, in order, or the
      exception of the first participant whose badge throws. */
  function RenderRows(activity: string, ps: seq<string>): (r: Result<seq<Row>>)
    ensures r.Ok? <==> forall i :: 0 <= i < |ps| ==> GetInitials(ps[i]).Ok?
    ensures r.Ok? ==> |r.value| == |ps|
    ensures r.Ok? ==> forall i :: 0 <= i < |ps| ==> RenderRow(activity, ps[i]) == Ok(r.value[i])
    decreases |ps|
  {
    if ps == [] then Ok([])
    else match RenderRow(activity, ps[0])
      case Err(e) => Err(e)
      case Ok(row) =>
        match RenderRows(activity, ps[1..])
        case Err(e) => Err(e)
        case Ok(rows) => Ok([row] + rows)
  }

  /** The card for one entry. It fails exactly when `participants` is
      missing or a participant's badge throws. */
  function RenderCard(e: Entry): (r: Result<Card>)
    ensures r.Ok? <==>
      e.details.participants.Some?
      && forall i :: 0 <= i < |e.details.participants.value| ==> GetInitials(e.details.participants.value[i]).Ok?
  {
    match e.details.participants
    case None => Err(TypeError)
    case Some(ps) =>
      var spotsLeft := e.details.maxParticipants - |ps|;
      match RenderRows(e.name, ps)
      case Err(err) => Err(err)
      case Ok(rows) =>
        var list := if ps != [] then Rows(rows) else NoParticipantsYet;
        Ok(Card(EscapeHtml(e.name), EscapeField(e.details.description),
                EscapeField(e.details.schedule), spotsLeft, list))
  }

  /** What a rendered card shows: the title is escaped and decodes to the
      name, `spotsLeft` is capacity minus enrolment, the placeholder stands
      for an empty list, and otherwise there is one row per participant, in
      order, each carrying the escaped participant and activity's name. */
  lemma RenderCardContents(e: Entry)
    requires RenderCard(e).Ok?
    ensures var card, ps := RenderCard(e).value, e.details.participants.value;
      && WellEscaped(card.title) && Unescape(card.title) == e.name
      && card.description == EscapeField(e.details.description)
      && card.schedule == EscapeField(e.details.schedule)
      && card.spotsLeft == e.details.maxParticipants - |ps|
      && (card.participants == NoParticipantsYet <==> ps == [])
      && (card.participants.Rows? ==>
            |card.participants.rows| == |ps|
            && forall i :: 0 <= i < |ps| ==>
                 var row := card.participants.rows[i];
                 row.text == EscapeHtml(ps[i])
                 && WellEscaped(row.dataEmail) && Unescape(row.dataEmail) == ps[i]
                 && WellEscaped(row.dataActivity) && Unescape(row.dataActivity) == e.name
                 && row.badge == GetInitials(ps[i]).value)
  {
  }

  // ---------------------------------------------------------------------
  // The forEach over the entries

  /** What the `forEach` leaves behind: the cards appended to the list, the
      names appended to the select, and whether it stopped on an
      exception. */
  datatype Run = Run(cards: seq<Card>, appended: seq<string>, failed: bool)

  /** Index of the first entry whose card throws, or `|entries|`. */
  function FirstFailure(entries: seq<Entry>): (k: nat)
    ensures k <= |entries|
    ensures forall j :: 0 <= j < k ==> RenderCard(entries[j]).Ok?
    ensures k < |entries| ==> RenderCard(entries[k]).Err?
    decreases |entries|
  {
    if entries == [] || RenderCard(entries[0]).Err? then 0
    else
      var rest := entries[1..];
      assert forall j :: 0 < j < |entries| ==> entries[j] == rest[j - 1];
      1 + FirstFailure(rest)
  }

  /** The `forEach` body run over every entry in order: a card and then an
      option for each entry, stopping at the first entry whose card
      throws. */
  function RenderEntries(entries: seq<Entry>): (r: Run)
    ensures |r.cards| == |r.appended| <= |entries|
    ensures !r.failed ==> |r.cards| == |entries|
    ensures forall k :: 0 <= k < |r.appended| ==> r.appended[k] == entries[k].name
    ensures forall k :: 0 <= k < |r.cards| ==> RenderCard(entries[k]) == Ok(r.cards[k])
    decreases |entries|
  {
    if entries == [] then Run([], [], false)
    else match RenderCard(entries[0])
      case Err(_) => Run([], [], true)
      case Ok(card) =>
        var rest := RenderEntries(entries[1..]);
        Run([card] + rest.cards, [entries[0].name] + rest.appended, rest.failed)
  }

  /** The names of a non-empty prefix: the first name, then the names of
      the rest of the prefix. */
  lemma NamesOfPrefix(entries: seq<Entry>, k: nat)
    requires k < |entries|
    ensures Names(entries[..k + 1]) == [entries[0].name] + Names(entries[1..][..k])
  {
    assert entries[..k + 1] == [entries[0]] + entries[1..][..k];
  }

  /** The `forEach` stops exactly at the first entry whose card throws:
      the options of the entries before it are appended and its own is
      not. */
  lemma {:induction false} RenderEntriesStops(entries: seq<Entry>)
    ensures var run, k := RenderEntries(entries), FirstFailure(entries);
      && (run.failed <==> k < |entries|)
      && run.appended == Names(entries[..k])
    decreases |entries|
  {
    if entries != [] && RenderCard(entries[0]).Ok? {
      var rest := entries[1..];
      RenderEntriesStops(rest);
      var k := FirstFailure(rest);
      assert FirstFailure(entries) == 1 + k;
      assert RenderEntries(entries).appended == [entries[0].name] + RenderEntries(rest).appended;
      NamesOfPrefix(entries, k);
    }
  }

  /** When no card throws, the `forEach` appends one card per entry, in
      order. */
  lemma {:induction false} RenderEntriesCards(entries: seq<Entry>)
    ensures var run := RenderEntries(entries);
      !run.failed ==>
        && |run.cards| == |entries|
        && forall i :: 0 <= i < |entries| ==> RenderCard(entries[i]) == Ok(run.cards[i])
    decreases |entries|
  {
    if entries != [] && !RenderEntries(entries).failed {
      var rest := entries[1..];
      RenderEntriesCards(rest);
      var run := RenderEntries(entries);
      forall i | 0 <= i < |entries|
        ensures RenderCard(entries[i]) == Ok(run.cards[i])
      {
        if i > 0 {
          assert entries[i] == rest[i - 1];
        }
      }
    }
  }

  /** The render step of `fetchActivities`. A failed fetch shows the failure
      paragraph and leaves the options alone. A fetched roster replaces the
      card area by one card per entry, in order, and appends one option per
      name after the existing ones, when no card throws; when one does, the
      card area is the failure paragraph and only the names before it were
      appended. No option is ever removed. */
  function ApplyFetch(st: UiState, res: FetchResult): (st': UiState)
    ensures st'.area != Loading
    ensures st.options <= st'.options
    ensures res.FetchFailed? ==> st' == UiState(LoadFailed, st.options)
    ensures st'.area.Cards? <==> res.Fetched? && forall i :: 0 <= i < |res.entries| ==> RenderCard(res.entries[i]).Ok?
    ensures st'.area.Cards? ==>
      |st'.area.cards| == |res.entries|
      && (forall i :: 0 <= i < |res.entries| ==> RenderCard(res.entries[i]) == Ok(st'.area.cards[i]))
      && st'.options == st.options + Names(res.entries)
    ensures res.Fetched? && st'.area == LoadFailed ==>
      var k := FirstFailure(res.entries);
      k < |res.entries| && RenderCard(res.entries[k]).Err?
      && st'.options == st.options + Names(res.entries[..k])
  {
    match res
    case FetchFailed => UiState(LoadFailed, st.options)
    case Fetched(entries) =>
      var run := RenderEntries(entries);
      RenderEntriesStops(entries);
      RenderEntriesCards(entries);
      assert entries[..|entries|] == entries;
      UiState(if run.failed then LoadFailed else Cards(run.cards), st.options + run.appended)
  }

  // ---------------------------------------------------------------------
  // Consequences

  /** Every rendered row gives back, through its attributes and the decoding
      of the five entities, exactly the participant and the activity it was
      rendered for. */
  lemma RenderedRowsRecoverIdentifiers(st: UiState, entries: seq<Entry>, i: nat, j: nat)
    requires ApplyFetch(st, Fetched(entries)).area.Cards?
    requires i < |entries|
    requires ApplyFetch(st, Fetched(entries)).area.cards[i].participants.Rows?
    requires j < |ApplyFetch(st, Fetched(entries)).area.cards[i].participants.rows|
    ensures entries[i].details.participants.Some?
    ensures j < |entries[i].details.participants.value|
    ensures var row := ApplyFetch(st, Fetched(entries)).area.cards[i].participants.rows[j];
      Unescape(row.dataEmail) == entries[i].details.participants.value[j]
      && Unescape(row.dataActivity) == entries[i].name
  {
    RenderCardContents(entries[i]);
  }

  /** Options are appended and never cleared: rendering the same roster
      twice lists every name twice, so after the second refresh the select
      no longer mirrors the cards. */
  lemma OptionsAccumulate(st: UiState, entries: seq<Entry>)
    requires ApplyFetch(st, Fetched(entries)).area.Cards?
    ensures var st2 := ApplyFetch(ApplyFetch(st, Fetched(entries)), Fetched(entries));
      st2.area == ApplyFetch(st, Fetched(entries)).area
      && st2.options == st.options + Names(entries) + Names(entries)
  {
  }

  /** The render step depends on the previous state only through the
      options: the card area is rebuilt from the fetch result alone. */
  lemma AreaIgnoresPreviousState(st1: UiState, st2: UiState, res: FetchResult)
    ensures ApplyFetch(st1, res).area == ApplyFetch(st2, res).area
  {
  }

  /** An activity over capacity shows a negative number of spots left. */
  lemma SpotsLeftUnclamped(name: string, d: Details)
    requires d.participants.Some? && |d.participants.value| > d.maxParticipants
    requires RenderCard(Entry(name, d)).Ok?
    ensures RenderCard(Entry(name, d)).value.spotsLeft < 0
  {
    RenderCardContents(Entry(name, d));
  }
}

=== FILE: text.dfy ===
/** Character and string primitives the client's helpers are built from:
    JavaScript's `\s` class, `toUpperCase` on ASCII letters, and a global
    single-character `replace`.
 */
module Text {

  /** A character matched by JavaScript's regular-expression class `\s`
      (the ECMAScript WhiteSpace and LineTerminator characters). */
  predicate IsWhitespace(c: char) {
    || c == ' ' || c == '\t' || c == '\n' || c == '\r' || c == '\U{B}' || c == '\U{C}'
    || c == '\U{A0}' || c == '\U{1680}' || ('\U{2000}' <= c <= '\U{200A}')
    || c == '\U{2028}' || c == '\U{2029}' || c == '\U{202F}' || c == '\U{205F}'
    || c == '\U{3000}' || c == '\U{FEFF}'
  }

  predicate IsLower(c: char) {
    'a' <= c <= 'z'
  }

  /** `toUpperCase` restricted to ASCII: `a`..`z` map to `A`..`Z`, every
      other character is left as it is. */
  function UpperChar(c: char): (u: char)
    ensures !IsLower(u)
    ensures IsLower(c) ==> u as int == c as int - 32
    ensures !IsLower(c) ==> u == c
  {
    if IsLower(c) then (c as int - 32) as char else c
  }

  function Upper(s: string): (r: string)
    ensures |r| == |s|
    ensures forall i :: 0 <= i < |s| ==> r[i] == UpperChar(s[i])
  {
    seq(|s|, i requires 0 <= i < |s| => UpperChar(s[i]))
  }

  /** `s[0] || ""` in JavaScript: the first character, or nothing. */
  function FirstChar(s: string): (r: string)
    ensures |r| <= 1
    ensures s == [] ==> r == []
    ensures s != [] ==> r == [s[0]]
  {
    if s == [] then [] else [s[0]]
  }

  /** `s.replace(/c/g, rep)`: every occurrence of `c`, scanning left to
      right, becomes `rep`. */
  function ReplaceAll(s: string, c: char, rep: string): (r: string)
    ensures forall d :: d in r ==> d in rep || (d in s && d != c)
    ensures forall d :: d in s && d != c ==> d in r
    decreases |s|
  {
    if s == [] then []
    else (if s[0] == c then rep else [s[0]]) + ReplaceAll(s[1..], c, rep)
  }

  /** A global replace on a one-character string. */
  lemma ReplaceSingle(x: char, c: char, rep: string)
    ensures ReplaceAll([x], c, rep) == if x == c then rep else [x]
  {
    assert [x][1..] == [];
  }

  /** Replacing a character that does not occur changes nothing. */
  lemma {:induction false} ReplaceAbsent(s: string, c: char, rep: string)
    requires c !in s
    ensures ReplaceAll(s, c, rep) == s
    decreases |s|
  {
    if s != [] {
      assert s == [s[0]] + s[1..];
      ReplaceAbsent(s[1..], c, rep);
    }
  }

  /** A global replace works piecewise on a concatenation. */
  lemma {:induction false} ReplaceAppend(a: string, b: string, c: char, rep: string)
    ensures ReplaceAll(a + b, c, rep) == ReplaceAll(a, c, rep) + ReplaceAll(b, c, rep)
    decreases |a|
  {
    if a == [] {
      assert a + b == b;
    } else {
      assert (a + b)[1..] == a[1..] + b;
      ReplaceAppend(a[1..], b, c, rep);
    }
  }

  /** Concatenation of a sequence of strings, in order. */
  function Flatten(ss: seq<string>): string
    decreases |ss|
  {
    if ss == [] then [] else ss[0] + Flatten(ss[1..])
  }
}

=== FILE: wrappers.dfy ===
/** Small failure-carrying datatypes shared by the client model.

    A JavaScript value that may be absent (`undefined`/`null`) is an `Option`;
    a computation that may throw is a `Result` whose failure side records which
    exception the browser would raise.
 */
module Wrappers {

  datatype Option<+T> = None | Some(value: T) {

    /** The value, or `default` when absent. */
    function GetOr(default: T): T {
      match this
      case Some(v) => v
      case None => default
    }
  }

  /** The exception the modelled code can raise inside a card: reading a
      property of `undefined` or `null`. A failed fetch is a case of its own
      (`Render.FetchFailed`) and carries no exception value. */
  datatype Thrown = TypeError

  datatype Result<+R> = Ok(value: R) | Err(error: Thrown)

  /** JavaScript's `v || fallback` for a string that may be absent: the
      empty string and an absent value are both falsy. */
  function OrElse(v: Option<string>, fallback: string): (r: string)
    ensures v.Some? && v.value != "" ==> r == v.value
    ensures v == None || v == Some("") ==> r == fallback
  {
    if v.Some? && v.value != "" then v.value else fallback
  }
}
